=== FILE: README.md ===
# TaxAIDEMO core, modelled in Dafny

TaxAIDEMO is a Next.js application. A client uploads tax documents, picks a
country and an analysis type, and may add notes. A generative model then
returns a structured report: the document types, key figures, a health
summary, an executive summary, an optional what-if section, and a list of
strategies, each with a free-text savings estimate. The report page has:
- a strategy checklist with a progress bar;
- a savings chart;
- a chat panel that asks a second model about the report.

Reports are kept in the browser's local storage. The history page lists
them newest first, renames them and shows each one's total savings.

This project models that core as pure functions over immutable data:

| module | file | what it models |
|---|---|---|
| `Base` | `base.dfy` | `Option` and `Result` |
| `JsText` | `js_text.dfy` | `String.prototype.trim`, `split` with a one-character separator, and a global character-class `replace` |
| `JsNumber` | `js_number.dfy` | JavaScript numbers as a real or NaN; `+`, and the decimal `parseFloat` |
| `Sorting` | `sorting.dfy` | a descending insertion sort, for `Array.prototype.sort` with a `b - a` comparator |
| `TaxSchema` | `tax_schema.dfy` | the flow's input and output records, and the output schema check as a decoder from JSON |
| `AnalyzePrompt` | `analyze_prompt.dfy` | the analysis prompt, as the list of text and media parts the template renders |
| `ChatFlow` | `chat_flow.dfy` | the chat flow's role enum and the generation request it assembles |
| `ChatAssistant` | `chat_assistant.dfy` | the chat panel's state and its send handler |
| `HistoryStore` | `history_store.dfy` | the `useHistory` hook: reports in memory, their stored copy, and the mounted guard |
| `HistoryPage` | `history_page.dfy` | the rename editor and the newest-first list |
| `Savings` | `savings.dfy` | `parseSavings` and the per-report savings total |
| `AnalysisView` | `analysis_view.dfy` | the checklist, the progress percentage and the chart data |
| `PlannerPage` | `planner_page.dfy` | the planner form: files, submit guard, result, reset and the choice of view |
| `LoadingSteps` | `loading_steps.dfy` | the loading screen's step and progress counters |

Each React handler is one state transition. An `async` handler is split in
two: the part before the `await`, and the part after it. The outcome of the
await is a parameter: a `Reply` for the chat and an `Outcome` for the
analysis. Other things the code cannot see are also parameters:
- `JSON.stringify` of the report;
- reading a file into a data URI;
- parsing a report's `createdAt` into a time.

The history page carries its own copy of `parseSavings`. It is identical,
character for character, to the one in the report view, so `Savings`
models both with one definition and cites both files.

Behaviour of the code worth knowing:
- The chat flow does not check that the last turn is the user's. It reads the
  last turn's content. An empty history makes that read throw, which is
  modelled as `EmptyHistory`.
- The analysis call passes no `tools` option; the chat call passes
  `googleAI.tool.googleSearch`.
- The prompt asks the model for a next "step" for each strategy, while the
  schema field is `action`. The schema decides what is accepted, so the model
  uses `action`.

## Model

| member | source | states |
|---|---|---|
| TaxSchema.DecodeOutput | src/ai/flows/analyze-tax-document.ts:46-66 | an accepted object has the required arrays; its document types, key figures and strategies are exactly what those arrays decode to, item by item; its two summaries are the strings under their keys; its what-if is present exactly when the key is, and is then that key's string |
| TaxSchema.DecodeEncode | src/ai/flows/analyze-tax-document.ts:46-66 | every report passes the schema check when written out as JSON, and decodes back to itself |
| TaxSchema.DecodeConforming | src/ai/flows/analyze-tax-document.ts:46-66 | any object whose fields have the schema's shapes is accepted as exactly the report those fields describe |
| TaxSchema.MissingStrategiesRejected | src/ai/flows/analyze-tax-document.ts:57-65 | an object without `strategies` is rejected |
| TaxSchema.StrategyRoundTrip | src/ai/flows/analyze-tax-document.ts:58-64 | a strategy's five string fields survive the JSON round trip |
| TaxSchema.KeyFigureRoundTrip | src/ai/flows/analyze-tax-document.ts:49-52 | a key figure's name and value survive the JSON round trip |
| TaxSchema.DecodeEach | src/ai/flows/analyze-tax-document.ts:47-65 | an array is accepted only when every item is, and then item by item in order |
| TaxSchema.StringAt | src/ai/flows/analyze-tax-document.ts:54-56 | a string field is read only when the key holds a string |
| AnalyzePrompt.BuildPrompt | src/ai/flows/analyze-tax-document.ts:82-127 | the country, the type, the what-if paragraph and the eleven figure lines sit at fixed places; the opening, the instructions and the documents heading are the template's own text at theirs; the head is all text; the documents section follows it |
| AnalyzePrompt.PromptHead | src/ai/flows/analyze-tax-document.ts:82-116 | the template's fixed texts (opening, the text after the country, core and strategy instructions, documents heading) at slots 0, 2, 4, 6 and 19, with the country at 1 and 5, the type at 3, the what-if paragraph at 7 and one line per figure from 8 |
| AnalyzePrompt.FieldText | src/ai/flows/analyze-tax-document.ts:104-116 | a figure prints as itself when truthy and as "Not Provided" otherwise; it is never empty |
| AnalyzePrompt.Fields | src/ai/flows/analyze-tax-document.ts:104-116 | eleven figures: the income group's three, then the deductions group's four, then the business group's four |
| AnalyzePrompt.IncomeValues | src/ai/flows/analyze-tax-document.ts:104-106 | a present income group gives its employment, investment and retirement figures in that order; an absent one gives three absent figures |
| AnalyzePrompt.DeductionValues | src/ai/flows/analyze-tax-document.ts:108-111 | a present deductions group gives its mortgage, charity, student-loan and other figures in that order; an absent one gives four absent figures |
| AnalyzePrompt.BusinessValues | src/ai/flows/analyze-tax-document.ts:113-116 | a present business group gives its business revenue, business expenses, rental income and rental expenses in that order; an absent one gives four absent figures |
| AnalyzePrompt.FieldTexts | src/ai/flows/analyze-tax-document.ts:104-116 | each figure is printed as itself when truthy and as "Not Provided" otherwise, in order |
| AnalyzePrompt.FieldLines | src/ai/flows/analyze-tax-document.ts:104-116 | each printed figure follows its own label |
| AnalyzePrompt.WhatIfText | src/ai/flows/analyze-tax-document.ts:98-99 | truthy notes give the what-if directive with the notes quoted in full; otherwise the skip sentence |
| AnalyzePrompt.Documents | src/ai/flows/analyze-tax-document.ts:118-126 | with no documents, the prompt has only the "No documents were uploaded" sentence; otherwise an intro followed by one media part per URI |
| AnalyzePrompt.MediaParts | src/ai/flows/analyze-tax-document.ts:121-123 | one media part per URI, in order |
| AnalyzePrompt.PromptCarriesDocuments | src/ai/flows/analyze-tax-document.ts:118-126 | the prompt's media URLs are exactly the input's data URIs, in order |
| AnalyzePrompt.FiguresFollowTheirLabels | src/ai/flows/analyze-tax-document.ts:104-116 | the figure printed after each label is that label's own input field, from "Employment Income" to "Rental Expenses", for every group that is present |
| AnalyzePrompt.NoDocumentsSentenceIff | src/ai/flows/analyze-tax-document.ts:119-126 | the "no documents" sentence appears exactly when the list of URIs is empty |
| AnalyzePrompt.PromptIgnoresEmptyValues | src/ai/flows/analyze-tax-document.ts:104-116 | an empty figure and an absent one give the same prompt |
| AnalyzePrompt.MediaUrlsAppend | src/ai/flows/analyze-tax-document.ts:118-126 | the media URLs of two joined part lists are the URLs of each, joined |
| AnalyzePrompt.MediaUrlsOfMediaParts | src/ai/flows/analyze-tax-document.ts:121-123 | the each-block's parts carry back exactly the URIs it was given |
| ChatFlow.ParseRole | src/ai/flows/chat-with-report.ts:20-23 | only "user" and "model" are accepted as roles, and each names its role |
| ChatFlow.RoleRoundTrip | src/ai/flows/chat-with-report.ts:21 | each role's name parses back to that role |
| ChatFlow.SystemPrompt | src/ai/flows/chat-with-report.ts:41-55 | the system prompt is the fixed preamble, the serialised report and the closing fence |
| ChatFlow.EmbeddedReportRoundTrip | src/ai/flows/chat-with-report.ts:52-55 | the report text can be read back out of the system prompt |
| ChatFlow.SystemPromptInjective | src/ai/flows/chat-with-report.ts:52-55 | two different serialisations give two different system prompts |
| ChatFlow.ToMessages | src/ai/flows/chat-with-report.ts:62 | each turn maps to one message with the same role and content, in order |
| ChatFlow.TurnsRoundTrip | src/ai/flows/chat-with-report.ts:62 | the message list gives back the turns it was built from |
| ChatFlow.BuildRequest | src/ai/flows/chat-with-report.ts:57-65 | an empty history fails; otherwise the request has `gemini-2.5-flash`, web search, the system turn, then the turns, and the last turn's content as the prompt |
| ChatFlow.RequestDeterminesInputs | src/ai/flows/chat-with-report.ts:57-65 | a built request gives back its transcript and the serialised report |
| ChatAssistant.ToggleOpen | src/components/chat-assistant.tsx:138 | the toggle flips the panel and changes nothing else |
| ChatAssistant.Close | src/components/chat-assistant.tsx:84 | the close button shuts the panel and changes nothing else |
| ChatAssistant.CloseIsToggleWhenOpen | src/components/chat-assistant.tsx:84 | closing an open panel is toggling it, and closing is idempotent |
| ChatAssistant.SetInput | src/components/chat-assistant.tsx:124 | typing sets the box and nothing else |
| ChatAssistant.Submit | src/components/chat-assistant.tsx:24-32 | the send is ignored exactly when the trimmed input is empty or a reply is pending; otherwise the untrimmed input is appended as a user turn, the box is cleared and loading starts |
| ChatAssistant.DropLast | src/components/chat-assistant.tsx:51 | `slice(0, -1)` removes exactly the last entry, and nothing from an empty list |
| ChatAssistant.Settle | src/components/chat-assistant.tsx:40-56 | a non-empty reply is appended as a model turn; an empty reply or an error removes the last turn; loading ends and the chat counts as started |
| ChatAssistant.IgnoredSendIsNoOp | src/components/chat-assistant.tsx:26 | a guarded send changes nothing |
| ChatAssistant.SentHistoryIsAccepted | src/components/chat-assistant.tsx:35-39 | the history sent is non-empty and ends with the user's turn, so the flow prompts with what was typed |
| ChatAssistant.FailedSendRollsBack | src/components/chat-assistant.tsx:45-51 | a failed send restores the transcript and leaves the box cleared |
| ChatAssistant.AnsweredSendAppendsPair | src/components/chat-assistant.tsx:28-41 | a successful send adds exactly the user's turn and the reply |
| ChatAssistant.SendKeepsExchanges | src/components/chat-assistant.tsx:24-58 | a transcript of whole user/model exchanges stays so after any send |
| HistoryStore.Initial | src/hooks/use-history.ts:22-23 | before mounting, the list is empty and the hook is not mounted |
| HistoryStore.Mount | src/hooks/use-history.ts:25-35 | mounting sets the flag; a readable saved list replaces the list; an empty or unreadable entry leaves it; a fresh hook ends in sync with its storage |
| HistoryStore.Save | src/hooks/use-history.ts:37-44 | memory and storage hold the same list afterwards |
| HistoryStore.Without | src/hooks/use-history.ts:54 | a report stays exactly when its id differs |
| HistoryStore.Renamed | src/hooks/use-history.ts:60-62 | reports with the id take the new name and keep every other field; all other reports are unchanged |
| HistoryStore.FindById | src/hooks/use-history.ts:68 | nothing is found exactly when no report has the id; otherwise the first report that has it |
| HistoryStore.AddReport | src/hooks/use-history.ts:46-50 | unmounted, nothing changes; mounted, the report is appended and stored; sync is kept |
| HistoryStore.DeleteReport | src/hooks/use-history.ts:52-56 | unmounted, nothing changes; mounted, every report with the id is removed and the rest stored; sync is kept |
| HistoryStore.UpdateReportName | src/hooks/use-history.ts:58-64 | unmounted, nothing changes; mounted, the renamed list is stored; sync is kept |
| HistoryStore.GetReportById | src/hooks/use-history.ts:66-69 | unmounted, nothing is found; mounted, the first report with the id |
| HistoryStore.ClearHistory | src/hooks/use-history.ts:71-74 | unmounted, nothing changes; mounted, memory and storage are emptied |
| HistoryStore.WithoutAppend | src/hooks/use-history.ts:54 | filtering distributes over concatenation, so order is kept |
| HistoryStore.WithoutAbsent | src/hooks/use-history.ts:54 | filtering out an absent id changes nothing |
| HistoryStore.DeleteTwice | src/hooks/use-history.ts:52-56 | deleting is idempotent |
| HistoryStore.DeleteUndoesAdd | src/hooks/use-history.ts:46-56 | deleting a freshly added report with a new id restores the list |
| HistoryStore.FindAfterAppend | src/hooks/use-history.ts:68 | an appended report with a new id is found |
| HistoryStore.GetAfterAdd | src/hooks/use-history.ts:46-69 | a report added with a new id is then found by its id |
| HistoryStore.GetAfterDelete | src/hooks/use-history.ts:52-69 | after a delete, no report has that id |
| HistoryStore.RenameTwice | src/hooks/use-history.ts:58-64 | the last rename wins |
| HistoryStore.FindAfterRename | src/hooks/use-history.ts:58-69 | after a rename, the report found by the id carries the new name |
| HistoryStore.GetAfterClear | src/hooks/use-history.ts:66-74 | after clearing, no id is found |
| HistoryPage.StartEdit | src/app/history/page.tsx:52-55 | edit mode is opened for the report, with its current name in the buffer |
| HistoryPage.Type | src/app/history/page.tsx:108 | typing changes the buffer and not the report being edited |
| HistoryPage.SaveName | src/app/history/page.tsx:57-63 | a blank buffer renames nothing; otherwise the report gets the trimmed text; the editor closes either way |
| HistoryPage.Cancel | src/app/history/page.tsx:113 | cancel leaves edit mode, keeps the buffer and never touches the store |
| HistoryPage.SavedNameIsTrimmed | src/app/history/page.tsx:57-63 | a saved name is never blank or padded |
| HistoryPage.SaveUntouchedName | src/app/history/page.tsx:52-63 | opening and saving a trimmed name without edits leaves the list as it was |
| HistoryPage.SortedReports | src/app/history/page.tsx:69 | the list is newest first and a permutation of the stored reports |
| Sorting.SortDesc | src/app/history/page.tsx:69 | the result is sorted descending by the key and a permutation of the input |
| Sorting.InsertDesc | src/components/analysis-result.tsx:76 | inserting into a descending list keeps it descending and adds exactly the item |
| Savings.CleanSavings | src/components/analysis-result.tsx:25 | no `$ , ₹ € £` remains, and nothing is added |
| Savings.SecondReplaceIsNoOp | src/components/analysis-result.tsx:25 | the second comma removal never changes anything |
| Savings.SavingsPieces | src/components/analysis-result.tsx:26 | splitting on `-` gives at least one piece |
| Savings.ReadPieces | src/components/analysis-result.tsx:26 | each piece is trimmed and read by `parseFloat`, in order |
| Savings.ParseSavings | src/components/analysis-result.tsx:24-34 | text without a dash always reads as a number; the reading is NaN exactly when the text splits into two or more pieces and one of the first two is not a number, since the range branch has no NaN check |
| Savings.ParseSavingsAmount | src/components/analysis-result.tsx:24-34 | `$n` reads as n, for every natural number n |
| Savings.ParseSavingsRange | src/components/analysis-result.tsx:24-34 | `$n - $m` reads as (n + m) / 2 |
| Savings.DashReadsAsNaN | src/app/history/page.tsx:27-29 | `-` reads as NaN, and so does every total a `-` strategy enters |
| Savings.ParseSavingsGuarded | src/app/history/page.tsx:24-34 | with the one-piece NaN check applied to ranges too, the reading is always a number and agrees wherever the original is one |
| Savings.TotalSavingsGuarded | src/app/history/page.tsx:99 | the guarded total is always a number and equals the original total whenever that one is |
| Savings.GuardedAgrees | src/app/history/page.tsx:99 | the guarded and original totals agree when the original is a number |
| Savings.SumBy | src/app/history/page.tsx:99 | a `reduce` of `+` from 0 is NaN exactly when some term is |
| Savings.SumByAppend | src/app/history/page.tsx:99 | the sum over a concatenation is the sum of the two sums |
| Savings.SumByAmounts | src/app/history/page.tsx:99 | a sum of whole amounts is their arithmetic sum |
| Savings.TotalSavings | src/app/history/page.tsx:99 | a report's total is NaN exactly when some strategy reads as NaN |
| Savings.TotalOfAmounts | src/app/history/page.tsx:99 | strategies of the form `$n` total the sum of their amounts |
| Savings.TotalSavingsAppend | src/app/history/page.tsx:99 | the total over two strategy lists is the sum of their totals |
| AnalysisView.Toggle | src/components/analysis-result.tsx:40-42 | ticking a title flips it and no other entry |
| AnalysisView.ToggleTwice | src/components/analysis-result.tsx:40-42 | ticking twice restores every title's state |
| AnalysisView.CompletedCount | src/components/analysis-result.tsx:44 | the count of ticked entries is at most the number of entries |
| AnalysisView.CompletedCountExtremes | src/components/analysis-result.tsx:44 | the count is 0 exactly when nothing is ticked, and equals the number of entries exactly when everything is |
| AnalysisView.ToggleCount | src/components/analysis-result.tsx:40-44 | a tick moves the count by exactly one, up or down |
| AnalysisView.TitlesCard | src/components/analysis-result.tsx:45 | there are no more distinct titles than strategies |
| AnalysisView.ToggleKeepsKeys | src/components/analysis-result.tsx:40-42 | ticking a listed strategy only ever keys the checklist by strategy titles |
| AnalysisView.ProgressPercentage | src/components/analysis-result.tsx:45 | 0 with no strategies; never negative; 100 once the number of ticked titles equals the number of strategies, which with a repeated title never happens because the checklist is keyed by title |
| AnalysisView.ProgressAtMostHundred | src/components/analysis-result.tsx:45 | progress never exceeds 100 while the checklist is keyed by strategy titles |
| AnalysisView.PositiveItems | src/components/analysis-result.tsx:73-76 | every item comes from some strategy, and every strategy with positive savings is present |
| AnalysisView.PositiveItemsSingle | src/components/analysis-result.tsx:73-76 | one strategy gives one bar, its title and savings, when its savings read as positive, and none otherwise |
| AnalysisView.PositiveItemsAppend | src/components/analysis-result.tsx:73-76 | the bars of joined strategy lists are the bars of each list, joined; with the one-strategy case this fixes each bar's multiplicity and the order |
| AnalysisView.ChartData | src/components/analysis-result.tsx:73-76 | the chart is sorted by savings, highest first; it is a permutation of the positive items, each positive and from a strategy |
| AnalysisView.ChartHasEveryPositive | src/components/analysis-result.tsx:73-76 | every strategy with positive savings appears in the chart |
| AnalysisView.GuardKeepsChart | src/components/analysis-result.tsx:76 | the guarded reading leaves the chart's items unchanged, because NaN is never positive |
| PlannerPage.FileChange | src/components/pages/tax-planner-page.tsx:35-39 | a selection is appended after the files already picked; no file list changes nothing |
| PlannerPage.RemoveFile | src/components/pages/tax-planner-page.tsx:41-43 | the file at the index is dropped and the rest keep their order; an index out of range drops nothing |
| PlannerPage.Reset | src/components/pages/tax-planner-page.tsx:45-50 | files, result, loading and notes are cleared; country and type are kept |
| PlannerPage.Submit | src/components/pages/tax-planner-page.tsx:52-73 | rejected exactly when no file is picked; otherwise loading starts, the result is cleared, and the flow gets one URI per file with the form's country, type and notes |
| PlannerPage.Complete | src/components/pages/tax-planner-page.tsx:75-85 | a returned report or null becomes the result; a failure keeps the result; loading ends; every other field is unchanged |
| PlannerPage.ViewOf | src/components/pages/tax-planner-page.tsx:88-94 | loading shows the loading screen; otherwise a result shows the report; otherwise the form |
| PlannerPage.SubmitWithoutFilesIsNoOp | src/components/pages/tax-planner-page.tsx:54-61 | a submit without files changes nothing |
| PlannerPage.SubmitViews | src/components/pages/tax-planner-page.tsx:52-94 | pending shows loading; a report shows the report; anything else shows the form |
| PlannerPage.ResetShowsForm | src/components/pages/tax-planner-page.tsx:45-50 | starting a new analysis shows the form |
| PlannerPage.PlannerPromptShape | src/components/pages/tax-planner-page.tsx:68-73 | the page sends no figures, so every figure line reads "Not Provided", the documents intro is used, and every file is attached |
| LoadingSteps.NextStep | src/components/loading-state.tsx:22-28 | the step advances until the last message and then stays |
| LoadingSteps.NextProgress | src/components/loading-state.tsx:32 | progress goes up by 2 below 95 and then stays |
| LoadingSteps.StepAfterIs | src/components/loading-state.tsx:22-28 | after n ticks the step is min(n, 4), always a valid message index |
| LoadingSteps.ProgressAfterIs | src/components/loading-state.tsx:32 | after n ticks progress is min(2n, 96): even and never above 96 |
| LoadingSteps.CountersMonotone | src/components/loading-state.tsx:20-33 | neither counter ever goes down |
| LoadingSteps.TranslateOffset | src/components/loading-state.tsx:64 | a message's offset is zero exactly for the current step, and negative exactly for earlier ones |
| JsText.Trim | src/components/chat-assistant.tsx:26 | the trimmed text has no whitespace at either end and is no longer than the input |
| JsText.TrimOfPadded | src/app/history/page.tsx:58 | trimming removes exactly the surrounding whitespace |
| JsText.BlankIffAllSpace | src/components/chat-assistant.tsx:26 | text trims to empty exactly when it is all whitespace |
| JsText.TrimIdempotent | src/app/history/page.tsx:58 | trimming twice is trimming once |
| JsText.Split | src/components/analysis-result.tsx:26 | splitting gives at least one piece, and no piece contains the separator |
| JsText.JoinSplit | src/components/analysis-result.tsx:26 | joining the pieces with the separator gives back the text |
| JsText.SplitJoin | src/components/analysis-result.tsx:26 | splitting a join of separator-free pieces gives back the pieces |
| JsText.RemoveChars | src/components/analysis-result.tsx:25 | no removed character remains |
| JsText.RemoveCharsKeeps | src/components/analysis-result.tsx:25 | every other character is kept, with its multiplicity |
| JsNumber.ParseFloat | src/components/analysis-result.tsx:26 | the reading is a number exactly when the text, after leading whitespace, starts with digits or a point followed by a digit |
| JsNumber.ParseFloatNatText | src/components/analysis-result.tsx:26 | the decimal text of n reads back as n |
| JsNumber.Plus | src/app/history/page.tsx:99 | a sum is NaN exactly when an operand is |
| JsNumber.Mean | src/components/analysis-result.tsx:28 | a mean is NaN exactly when an operand is, and otherwise lies between the two |

## Findings

| source | as written | input that shows it | evidently intended | confidence | as-written member | corrected member |
|---|---|---|---|---|---|---|
| src/app/history/page.tsx:27-29 (the same in src/components/analysis-result.tsx:27-29) | with two or more pieces after splitting on `-`, `parseSavings` returns the mean of the first two without the `isNaN` check the one-piece branch has | `potentialSavings` of `"-"` (or `"$2,000 - TBD"`): the pieces `""` and `""` read as NaN, so the mean is NaN, and the history card's total (line 122) shows `~$NaN` | an unreadable estimate counts as 0, as it does in the one-piece branch; the total is always a number | medium, not executed | Savings.DashReadsAsNaN | Savings.TotalSavingsGuarded |

The chart is not affected: it keeps only positive savings, and NaN is not
positive (`AnalysisView.GuardKeepsChart`). The rest of the model keeps the
reading as written, because the chart and the total are modelled as the
code computes them. `Savings.ParseSavingsGuarded` and
`Savings.TotalSavingsGuarded` are the corrected definitions. They are
proved never NaN, and proved to agree with the original wherever it is a
number.

## Left out

- Local storage failures: a `setItem` that throws after `setReports` would leave memory ahead of storage. The model treats the write as always succeeding.
- Stored text that parses as JSON but is not a list of reports: `Storage` is empty, unreadable, or a list of reports.
- React's asynchronous state: each handler is one atomic transition on the latest state. Stale closures are not modelled, such as `addReport` capturing an old `reports`, or `clearHistory` depending only on `isMounted`. Neither is the interleaving of two pending sends.
- The history page's own `isMounted` render guard and its loading skeleton: rendering only.
- Timers: `setInterval` and `clearInterval` are modelled as counts of ticks, not as time.
- Toasts, console logging, scrolling the chat, the PDF export (`jsPDF`) and all layout: side effects without state the core reads.
- The model calls (`ai.generate`): their results are the `Reply` and `Outcome` parameters. Genkit's own output parsing is not modelled. Neither is whether genkit renders the Handlebars block in the prompt; the documents section is modelled as the template says.
- The analysis call's model name and its other options: only the prompt it sends is modelled.
- The plugin-level `tools: [googleSearch]` in the genkit configuration (src/ai/genkit.ts:5), and whatever it grants to either call: the model records only the options each call passes itself.
- AnalysisView.Toggle: the checklist is a plain JavaScript object, so `prev[title]` and `checkedStrategies[title] || false` also read members inherited from `Object.prototype`. A strategy titled `constructor`, `toString`, `valueOf` or `__proto__` shows as ticked before any tick, and its first tick stores `false`. The model reads every title with no own entry as unticked, so it covers only titles that are not inherited member names.
- AnalysisView.ToggleCount: for a title that is an inherited member name, the source's first tick leaves `completedCount` unchanged; the lemma's "one more or one fewer" holds only for the titles the model covers, as the line above says.
- Handlebars whitespace and indentation inside the documents block: the parts carry the sentences and URIs, not the exact spacing.
- JsNumber.ParseFloat: exponents (`1e3`) and `Infinity` are not read; the model stops at the decimal fraction and reads `Infinity` as NaN. An estimate would need an `e` after its digits, or the word `Infinity`, for this to matter.
- JsNumber.Plus: numbers are exact reals, so floating-point rounding and overflow to infinity are not modelled.
- HistoryPage.SortedReports: the sort key is a parameter giving an integer time. An unparseable date, which gives NaN in `getTime`, is not modelled. Neither is the stability of the engine's sort: the result is proved sorted and a permutation, not a specific order among equal times.
- AnalysisView.ChartData: the order among equal savings is not fixed, for the same reason.
- Reading the files into data URIs (`FileReader`): a parameter.
- The `File` objects' browser metadata other than name and contents.
- The marketing, pricing, about and solutions pages, and the report page's route lookup: not part of the core.

=== FILE: analysis_view.dfy ===
/** The report page's derived state (`AnalysisResultDisplay`): the
    action-plan checklist keyed by strategy title, the completed count and
    progress percentage shown above it, and the savings chart. */
module AnalysisView {
  import opened JsNumber
  import opened TaxSchema
  import opened Savings
  import opened Sorting

  /** `checkedStrategies`: a record from strategy title to checked flag. */
  type Checklist = map<string, bool>

  /** `checkedStrategies[title] || false`: a title never toggled reads as
      unchecked. */
  predicate IsChecked(m: Checklist, title: string) {
    title in m && m[title]
  }

  /** The titles whose entry is true. */
  function CheckedTitles(m: Checklist): set<string> {
    set t | t in m && m[t]
  }

  /** `handleCheckboxChange`: `{ ...prev, [title]: !prev[title] }`. */
  function Toggle(m: Checklist, title: string): (r: Checklist)
    ensures IsChecked(r, title) <==> !IsChecked(m, title)
    ensures forall t :: t != title ==> (t in r <==> t in m) && (t in m ==> r[t] == m[t])
    ensures r.Keys == m.Keys + {title}
  {
    m[title := !IsChecked(m, title)]
  }

  /** Toggling twice restores the checked status of every title. */
  lemma ToggleTwice(m: Checklist, title: string, t: string)
    ensures IsChecked(Toggle(Toggle(m, title), title), t) <==> IsChecked(m, t)
  {
  }

  /** `Object.values(checkedStrategies).filter(Boolean).length`. */
  function CompletedCount(m: Checklist): (r: nat)
    ensures r <= |m.Keys|
  {
    var checked := CheckedTitles(m);
    assert checked <= m.Keys;
    SubsetCard(checked, m.Keys);
    |checked|
  }

  /** The count is 0 exactly when no entry is ticked, and it reaches the
      number of entries exactly when every entry is. */
  lemma CompletedCountExtremes(m: Checklist)
    ensures CompletedCount(m) == 0 <==> forall t :: t in m ==> !m[t]
    ensures CompletedCount(m) == |m.Keys| <==> forall t :: t in m ==> m[t]
  {
    var checked := CheckedTitles(m);
    assert checked <= m.Keys;
    if checked != m.Keys {
      StrictSubsetCard(checked, m.Keys);
    }
    assert forall t :: t in checked <==> t in m && m[t];
    if forall t :: t in m ==> !m[t] {
      assert forall t :: t !in checked;
      assert checked == {};
    }
  }

  lemma SubsetCard<T>(a: set<T>, b: set<T>)
    requires a <= b
    ensures |a| <= |b|
  {
    assert b == a + (b - a);
  }

  lemma StrictSubsetCard<T>(a: set<T>, b: set<T>)
    requires a < b
    ensures |a| < |b|
  {
    assert b == a + (b - a);
    assert b - a != {};
    var x :| x in b - a;
    SubsetCard(a, b - {x});
  }

  /** A toggle moves the completed count by exactly one, up when the title
      was unchecked and down when it was checked. */
  lemma ToggleCount(m: Checklist, title: string)
    ensures IsChecked(m, title) ==> CompletedCount(Toggle(m, title)) + 1 == CompletedCount(m)
    ensures !IsChecked(m, title) ==> CompletedCount(Toggle(m, title)) == CompletedCount(m) + 1
  {
    var before, after := CheckedTitles(m), CheckedTitles(Toggle(m, title));
    assert CompletedCount(m) == |before| && CompletedCount(Toggle(m, title)) == |after|;
    if IsChecked(m, title) {
      CheckedAfterUntick(m, title);
    } else {
      CheckedAfterTick(m, title);
    }
  }

  lemma CheckedAfterUntick(m: Checklist, title: string)
    requires IsChecked(m, title)
    ensures |CheckedTitles(Toggle(m, title))| + 1 == |CheckedTitles(m)|
  {
    var before, after := CheckedTitles(m), CheckedTitles(Toggle(m, title));
    assert title in before && after == before - {title} by {
      CheckedTitlesMembers(m);
      CheckedTitlesMembers(Toggle(m, title));
    }
  }

  lemma CheckedAfterTick(m: Checklist, title: string)
    requires !IsChecked(m, title)
    ensures |CheckedTitles(Toggle(m, title))| == |CheckedTitles(m)| + 1
  {
    var before, after := CheckedTitles(m), CheckedTitles(Toggle(m, title));
    assert title !in before && after == before + {title} by {
      CheckedTitlesMembers(m);
      CheckedTitlesMembers(Toggle(m, title));
    }
  }

  lemma CheckedTitlesMembers(m: Checklist)
    ensures forall t :: t in CheckedTitles(m) <==> IsChecked(m, t)
  {
  }

  /** The titles of a report's strategies, as a set. */
  function Titles(strategies: seq<Strategy>): set<string> {
    set i | 0 <= i < |strategies| :: strategies[i].title
  }

  lemma {:induction false} TitlesCard(strategies: seq<Strategy>)
    ensures |Titles(strategies)| <= |strategies|
    decreases |strategies|
  {
    if strategies != [] {
      var init := strategies[..|strategies| - 1];
      TitlesCard(init);
      assert Titles(strategies) == Titles(init) + {strategies[|strategies| - 1].title} by {
        forall t | t in Titles(strategies) ensures t in Titles(init) + {strategies[|strategies| - 1].title} {
          var i :| 0 <= i < |strategies| && strategies[i].title == t;
          if i < |strategies| - 1 {
            assert init[i].title == t;
          }
        }
      }
    }
  }

  /** The checklist only ever holds titles of the strategies it is shown
      beside, since the checkboxes are the only thing that toggles it. */
  predicate KeysAreTitles(m: Checklist, strategies: seq<Strategy>) {
    m.Keys <= Titles(strategies)
  }

  lemma ToggleKeepsKeys(m: Checklist, strategies: seq<Strategy>, i: nat)
    requires KeysAreTitles(m, strategies) && i < |strategies|
    ensures KeysAreTitles(Toggle(m, strategies[i].title), strategies)
  {
  }

  /** `progressPercentage`: the share of strategies checked, as a
      percentage, and 0 when the report has no strategy. */
  function ProgressPercentage(m: Checklist, strategies: seq<Strategy>): (r: real)
    ensures strategies == [] ==> r == 0.0
    ensures r >= 0.0
    ensures strategies != [] && CompletedCount(m) == |strategies| ==> r == 100.0
  {
    if |strategies| > 0 then
      var c, n := CompletedCount(m) as real, |strategies| as real;
      ShareBounds(c, n);
      (c / n) * 100.0
    else 0.0
  }

  /** While the checklist holds only strategy titles the progress never
      passes 100%. Titles may repeat, so the completed count is bounded by
      the number of distinct titles. */
  lemma ProgressAtMostHundred(m: Checklist, strategies: seq<Strategy>)
    requires KeysAreTitles(m, strategies)
    ensures ProgressPercentage(m, strategies) <= 100.0
  {
    if strategies != [] {
      SubsetCard(m.Keys, Titles(strategies));
      TitlesCard(strategies);
      var c, n := CompletedCount(m) as real, |strategies| as real;
      assert c <= n;
      ShareAtMostOne(c, n);
    }
  }

  lemma ShareAtMostOne(c: real, n: real)
    requires 0.0 <= c <= n && n > 0.0
    ensures c / n <= 1.0
  {
    assert (c / n) * n == c;
  }

  lemma ShareBounds(c: real, n: real)
    requires 0.0 <= c && n > 0.0
    ensures c / n >= 0.0
    ensures c == n ==> c / n == 1.0
  {
    assert (c / n) * n == c;
  }

  /** One bar of the savings chart. */
  datatype ChartItem = ChartItem(name: string, savings: real)

  /** The bar a strategy contributes when `read` gives it a positive
      amount. */
  predicate Charted(s: Strategy, item: ChartItem, read: Strategy -> Number) {
    && item.name == s.title
    && read(s) == Num(item.savings)
    && item.savings > 0.0
  }

  /** `result.strategies.map(...).filter(item => item.savings > 0)`, with
      the savings read by `read`: one bar per strategy read as a positive
      number (NaN is not), in the strategies' order. */
  function PositiveItems(strategies: seq<Strategy>, read: Strategy -> Number): (r: seq<ChartItem>)
    ensures |r| <= |strategies|
    ensures forall k :: 0 <= k < |r| ==> exists i :: 0 <= i < |strategies| && Charted(strategies[i], r[k], read)
    ensures forall i :: 0 <= i < |strategies| && IsPositive(read(strategies[i])) ==>
      ChartItem(strategies[i].title, read(strategies[i]).value) in r
    decreases |strategies|
  {
    if strategies == [] then []
    else
      var rest := PositiveItems(strategies[1..], read);
      var n := read(strategies[0]);
      assert forall k :: 0 <= k < |rest| ==> exists i :: 0 <= i < |strategies| && Charted(strategies[i], rest[k], read) by {
        forall k | 0 <= k < |rest| ensures exists i :: 0 <= i < |strategies| && Charted(strategies[i], rest[k], read) {
          var i :| 0 <= i < |strategies[1..]| && Charted(strategies[1..][i], rest[k], read);
          assert Charted(strategies[i + 1], rest[k], read);
        }
      }
      if IsPositive(n) then
        var item := ChartItem(strategies[0].title, n.value);
        assert Charted(strategies[0], item, read);
        [item] + rest
      else rest
  }

  /** The one bar, or none, that a single strategy contributes. */
  lemma PositiveItemsSingle(s: Strategy, read: Strategy -> Number)
    ensures IsPositive(read(s)) ==> PositiveItems([s], read) == [ChartItem(s.title, read(s).value)]
    ensures !IsPositive(read(s)) ==> PositiveItems([s], read) == []
  {
    assert [s][1..] == [];
  }

  /** The bars of joined lists are the bars of each, joined: with
      `PositiveItemsSingle` this fixes the bars' number and order, one per
      positively read strategy in the strategies' order. */
  lemma {:induction false} PositiveItemsAppend(a: seq<Strategy>, b: seq<Strategy>, read: Strategy -> Number)
    ensures PositiveItems(a + b, read) == PositiveItems(a, read) + PositiveItems(b, read)
    decreases |a|
  {
    if a == [] {
      assert a + b == b;
    } else {
      assert (a + b)[1..] == a[1..] + b;
      PositiveItemsAppend(a[1..], b, read);
    }
  }

  function SavingsOf(item: ChartItem): real {
    item.savings
  }

  /** Reordering the bars keeps each one tied to the strategy it came
      from. */
  lemma PermutationKeepsCharted(strategies: seq<Strategy>, items: seq<ChartItem>, sorted: seq<ChartItem>, read: Strategy -> Number)
    requires multiset(sorted) == multiset(items)
    requires forall k :: 0 <= k < |items| ==> exists i :: 0 <= i < |strategies| && Charted(strategies[i], items[k], read)
    ensures forall k :: 0 <= k < |sorted| ==>
      (sorted[k].savings > 0.0 && exists i :: 0 <= i < |strategies| && Charted(strategies[i], sorted[k], read))
  {
    forall k | 0 <= k < |sorted|
      ensures sorted[k].savings > 0.0 && exists i :: 0 <= i < |strategies| && Charted(strategies[i], sorted[k], read)
    {
      assert sorted[k] in multiset(items);
      var j :| 0 <= j < |items| && items[j] == sorted[k];
      var i :| 0 <= i < |strategies| && Charted(strategies[i], items[j], read);
    }
  }

  /** `chartData`: the positive bars, largest savings first. */
  function ChartData(strategies: seq<Strategy>): (r: seq<ChartItem>)
    ensures SortedDesc(r, SavingsOf)
    ensures multiset(r) == multiset(PositiveItems(strategies, StrategySavings))
    ensures forall k :: 0 <= k < |r| ==>
      (r[k].savings > 0.0 && exists i :: 0 <= i < |strategies| && Charted(strategies[i], r[k], StrategySavings))
  {
    var items := PositiveItems(strategies, StrategySavings);
    var sorted := SortDesc(items, SavingsOf);
    PermutationKeepsCharted(strategies, items, sorted, StrategySavings);
    sorted
  }

  /** Every strategy whose savings read as positive has its bar in the
      chart, so the filter drops exactly the non-positive and NaN ones. */
  lemma ChartHasEveryPositive(strategies: seq<Strategy>, i: nat)
    requires i < |strategies| && IsPositive(StrategySavings(strategies[i]))
    ensures ChartItem(strategies[i].title, StrategySavings(strategies[i]).value) in ChartData(strategies)
  {
    var item := ChartItem(strategies[i].title, StrategySavings(strategies[i]).value);
    assert item in multiset(PositiveItems(strategies, StrategySavings));
  }

  /** The chart already drops NaN (it is not positive), so reading the
      savings with the range-branch guard leaves the chart's items as they
      are; only the history total changes. */
  lemma {:induction false} GuardKeepsChart(strategies: seq<Strategy>)
    ensures PositiveItems(strategies, GuardedStrategySavings) == PositiveItems(strategies, StrategySavings)
    decreases |strategies|
  {
    if strategies != [] {
      GuardKeepsChart(strategies[1..]);
    }
  }
}

=== FILE: analyze_prompt.dfy ===
/** The instruction the document-analysis flow (`analyzeTaxDocumentFlow`)
    sends to the model, as a sequence of segments: fixed text, the values
    taken from the input, and one media entry per uploaded document. The
    JavaScript interpolations (`${...}`) and the template's `#if`/`#each`
    are evaluated here; merging adjacent text segments into one string is
    left implicit. */
module AnalyzePrompt {
  import opened Base
  import opened TaxSchema

  /** A prompt segment: text, or a `{{media url=...}}` entry. */
  datatype Part = Text(text: string) | Media(url: string)

  const Opening := "You are a world-class tax consultant and financial analyst providing services for clients in "

  /** Between the country and the analysis type. */
  const AfterCountry := ".\n"
    + "Your task is to conduct a comprehensive analysis of the provided financial documents AND the structured financial data for a client who has requested a \""

  /** Between the analysis type and the second mention of the country. */
  const CoreInstructions := "\" analysis.\n"
    + "Your response must be professional, insightful, and provide a clear, actionable tax-saving plan and a holistic financial health assessment.\n"
    + "\n"
    + "**Prioritize analysis of the structured data provided by the user, and use the uploaded documents as supplementary information or for cross-verification.**\n"
    + "\n"
    + "**Core Analysis Instructions:**\n"
    + "1.  **Identify Document Types:** If documents are provided, thoroughly identify the type of each document (e.g., \"US Form 1040\", \"Profit and Loss Statement\", \"Balance Sheet\", \"ITR-V (India)\").\n"
    + "2.  **Extract Key Financial Figures:** Consolidate and extract the most relevant financial figures from both the structured data and any provided documents. Be comprehensive. Examples include: Total Income, Gross Profit, Net Income, Total Deductions, Taxable Income, Key Asset/Liability values, etc.\n"
    + "3.  **Assess Overall Financial Health:** Write a detailed narrative under the \"Financial Health Summary\". This is crucial. It should synthesize information from all sources to provide a clear picture of the client's financial situation, including strengths, weaknesses, trends, and potential areas of concern.\n"
    + "4.  **Develop In-Depth Tax Strategies:** Based on your consolidated analysis, generate a list of specific, actionable tax-saving strategies that are highly relevant to "

  /** From the second mention of the country to the what-if slot. */
  const StrategyInstructions := "'s tax laws and the client's specific situation. For each strategy, you MUST provide:\n"
    + "    *   A clear \"title\".\n"
    + "    *   A detailed \"description\" explaining the strategy and its benefits.\n"
    + "    *   A concrete, actionable next \"step\" for the client.\n"
    + "    *   The \"relevantSection\" of the tax code or law that applies.\n"
    + "    *   A realistic \"potentialSavings\" estimate as a string (e.g., \"$2,000 - $3,000\" or \"\U{20B9}50,000 - \U{20B9}75,000\").\n"
    + "5.  **Address User's Specific Notes (What-If Analysis):**\n"

  /** The what-if directive, up to the quoted notes. */
  const WhatIfDirective := "The client has provided the following notes, questions, or goals. You MUST address these in a dedicated \"whatIfAnalysis\" section. This is critical. Directly answer their questions or model the scenarios they've described (e.g., 'What if I contributed an extra $5,000 to my retirement account?'). Your analysis here should be distinct from the main strategy recommendations but can reference them. Client notes: \""

  const WhatIfClosing := "\""

  const WhatIfOmitted := "The client has not provided any specific notes. The whatIfAnalysis field can be omitted."

  const NotProvided := "Not Provided"

  /** The text before each of the eleven structured figures, in order. */
  const FieldLabels: seq<string> := [
    "\n6. **Generate an Executive Summary:** Create a brief, high-level summary of the key findings and the total estimated potential tax savings AFTER completing all other analysis steps. This should be concise and impactful.\n"
    + "\n"
    + "**Structured User-Provided Data for Analysis:**\n"
    + "- **Income & Investments:**\n"
    + "  - Employment Income: ",
    "\n  - Investment Income (dividends, capital gains): ",
    "\n  - Retirement Contributions (401k, IRA): ",
    "\n- **Deductions & Credits:**\n  - Mortgage Interest: ",
    "\n  - Charitable Donations: ",
    "\n  - Student Loan Interest: ",
    "\n  - Other Key Deductions: ",
    "\n- **Business & Rental Income:**\n  - Business Revenue: ",
    "\n  - Business Expenses: ",
    "\n  - Rental Income: ",
    "\n  - Rental Expenses: "
  ]

  const DocumentsHeading := "\n\n**Analyze Uploaded Documents (if any):**\n"

  const DocumentsIntro := "The following documents are also provided for your analysis:\n"

  const NoDocuments := "No documents were uploaded. Base your analysis solely on the structured data provided.\n"

  /** The position of the what-if slot, of the first figure line, and of
      the documents block. */
  const WhatIfSlot := 7
  const FirstFieldSlot := 8
  const DocumentsSlot := 20

  /** A value the template treats as present: JavaScript truthiness of an
      optional string. */
  predicate Given(value: Option<string>) {
    value.Some? && value.value != []
  }

  /** `value || 'Not Provided'`. The fallback also reads "Not Provided"
      when the value is that very text, so the prompt cannot tell the two
      apart. */
  function FieldText(value: Option<string>): (r: string)
    ensures r != []
    ensures r == NotProvided <==> !Given(value) || value.value == NotProvided
    ensures Given(value) ==> r == value.value
  {
    if Given(value) then value.value else NotProvided
  }

  /** `incomeAndInvestments?.employmentIncome` and its two siblings. */
  function IncomeValues(g: Option<IncomeAndInvestments>): (r: seq<Option<string>>)
    ensures |r| == 3
    ensures g.None? ==> r == [None, None, None]
    ensures g.Some? ==> r == [g.value.employmentIncome, g.value.investmentIncome, g.value.retirementContributions]
  {
    match g
    case Some(g) => [g.employmentIncome, g.investmentIncome, g.retirementContributions]
    case None => [None, None, None]
  }

  /** The four `deductionsAndCredits?.` figures. */
  function DeductionValues(g: Option<DeductionsAndCredits>): (r: seq<Option<string>>)
    ensures |r| == 4
    ensures g.None? ==> r == [None, None, None, None]
    ensures g.Some? ==> r == [g.value.mortgageInterest, g.value.charitableDonations, g.value.studentLoanInterest, g.value.otherDeductions]
  {
    match g
    case Some(g) => [g.mortgageInterest, g.charitableDonations, g.studentLoanInterest, g.otherDeductions]
    case None => [None, None, None, None]
  }

  /** The four `businessAndRental?.` figures. */
  function BusinessValues(g: Option<BusinessAndRental>): (r: seq<Option<string>>)
    ensures |r| == 4
    ensures g.None? ==> r == [None, None, None, None]
    ensures g.Some? ==> r == [g.value.businessRevenue, g.value.businessExpenses, g.value.rentalIncome, g.value.rentalExpenses]
  {
    match g
    case Some(g) => [g.businessRevenue, g.businessExpenses, g.rentalIncome, g.rentalExpenses]
    case None => [None, None, None, None]
  }

  /** The eleven structured figures in the order the prompt lists them:
      the three income figures, then the four deductions, then the four
      business and rental figures. */
  function Fields(input: AnalysisInput): (r: seq<Option<string>>)
    ensures |r| == |FieldLabels|
    ensures r[..3] == IncomeValues(input.incomeAndInvestments)
    ensures r[3..7] == DeductionValues(input.deductionsAndCredits)
    ensures r[7..] == BusinessValues(input.businessAndRental)
  {
    IncomeValues(input.incomeAndInvestments) + DeductionValues(input.deductionsAndCredits)
      + BusinessValues(input.businessAndRental)
  }

  /** The text each figure renders as. */
  function FieldTexts(values: seq<Option<string>>): (r: seq<string>)
    ensures |r| == |values|
    ensures forall k :: 0 <= k < |values| ==> r[k] == FieldText(values[k])
    decreases |values|
  {
    if values == [] then [] else [FieldText(values[0])] + FieldTexts(values[1..])
  }

  /** One line per figure: its label followed by its text. */
  function FieldLines(labels: seq<string>, texts: seq<string>): (r: seq<Part>)
    requires |labels| == |texts|
    ensures |r| == |labels|
    ensures forall k :: 0 <= k < |labels| ==> r[k] == Text(labels[k] + texts[k])
    decreases |labels|
  {
    if labels == [] then [] else [Text(labels[0] + texts[0])] + FieldLines(labels[1..], texts[1..])
  }

  /** Item 5 of the instructions: the directive quoting the notes when notes
      are given, the sentence allowing the section to be left out when
      not. */
  function WhatIfText(notes: Option<string>): (r: string)
    ensures Given(notes) <==> |r| > |WhatIfDirective| && r[..|WhatIfDirective|] == WhatIfDirective
    ensures Given(notes) ==> (|r| == |WhatIfDirective| + |notes.value| + |WhatIfClosing|
      && r[|WhatIfDirective|..|r| - |WhatIfClosing|] == notes.value)
    ensures !Given(notes) ==> r == WhatIfOmitted
  {
    if Given(notes) then
      var r := WhatIfDirective + notes.value + WhatIfClosing;
      assert r[..|WhatIfDirective|] == WhatIfDirective;
      assert r[|WhatIfDirective|..|r| - |WhatIfClosing|] == notes.value;
      r
    else
      assert |WhatIfOmitted| < |WhatIfDirective|;
      WhatIfOmitted
  }

  /** `{{#each fileDataUris}}{{media url=this}}{{/each}}`. */
  function MediaParts(uris: seq<string>): (r: seq<Part>)
    ensures |r| == |uris|
    ensures forall i :: 0 <= i < |uris| ==> r[i] == Media(uris[i])
    decreases |uris|
  {
    if uris == [] then [] else [Media(uris[0])] + MediaParts(uris[1..])
  }

  /** `{{#if fileDataUris}}...{{else}}...{{/if}}`: an empty list is falsy. */
  function Documents(uris: seq<string>): (r: seq<Part>)
    ensures uris == [] <==> r == [Text(NoDocuments)]
    ensures uris != [] ==> r == [Text(DocumentsIntro)] + MediaParts(uris)
  {
    if uris == [] then [Text(NoDocuments)] else [Text(DocumentsIntro)] + MediaParts(uris)
  }

  /** Everything before the documents block, from the values the
      template interpolates: the country at slots 1 and 5, the analysis type
      at slot 3, the what-if text at slot 7, one line per figure from slot
      8, and the documents heading at slot 19. */
  function PromptHead(country: string, analysisType: string, whatIf: string, fieldTexts: seq<string>): (r: seq<Part>)
    requires |fieldTexts| == |FieldLabels|
    ensures |r| == DocumentsSlot
    ensures forall i :: 0 <= i < |r| ==> r[i].Text?
    ensures r[1] == Text(country) && r[3] == Text(analysisType) && r[5] == Text(country)
    ensures r[WhatIfSlot] == Text(whatIf)
    ensures forall k :: 0 <= k < |FieldLabels| ==> r[FirstFieldSlot + k] == Text(FieldLabels[k] + fieldTexts[k])
    ensures FixedText(r)
  {
    var head := [
      Text(Opening), Text(country), Text(AfterCountry), Text(analysisType),
      Text(CoreInstructions), Text(country), Text(StrategyInstructions), Text(whatIf)];
    var fields := FieldLines(FieldLabels, fieldTexts);
    var r := head + fields + [Text(DocumentsHeading)];
    assert forall k :: 0 <= k < |fields| ==> r[FirstFieldSlot + k] == fields[k];
    r
  }

  /** The instruction texts between the interpolated values: the opening,
      the text after the country, the core instructions, the strategy
      instructions and the documents heading. */
  predicate FixedText(r: seq<Part>)
    requires |r| >= DocumentsSlot
  {
    && r[0] == Text(Opening) && r[2] == Text(AfterCountry) && r[4] == Text(CoreInstructions)
    && r[6] == Text(StrategyInstructions) && r[DocumentsSlot - 1] == Text(DocumentsHeading)
  }

  /** The whole instruction: the head, then the documents block. */
  function BuildPrompt(input: AnalysisInput): (r: seq<Part>)
    ensures |r| == DocumentsSlot + |Documents(input.fileDataUris)|
    ensures r[1] == Text(input.country) && r[3] == Text(input.analysisType) && r[5] == Text(input.country)
    ensures r[WhatIfSlot] == Text(WhatIfText(input.additionalNotes))
    ensures forall k :: 0 <= k < |FieldLabels| ==> r[FirstFieldSlot + k] == Text(FieldLabels[k] + FieldText(Fields(input)[k]))
    ensures forall i :: 0 <= i < DocumentsSlot ==> r[i].Text?
    ensures FixedText(r)
    ensures r[DocumentsSlot..] == Documents(input.fileDataUris)
  {
    var head := PromptHead(input.country, input.analysisType, WhatIfText(input.additionalNotes), FieldTexts(Fields(input)));
    var r := head + Documents(input.fileDataUris);
    assert r[DocumentsSlot..] == Documents(input.fileDataUris);
    r
  }

  /** The URLs of the media entries, in order. */
  function MediaUrls(parts: seq<Part>): seq<string>
    decreases |parts|
  {
    if parts == [] then []
    else
      var rest := MediaUrls(parts[1..]);
      match parts[0]
      case Media(url) => [url] + rest
      case Text(_) => rest
  }

  lemma {:induction false} MediaUrlsAppend(a: seq<Part>, b: seq<Part>)
    ensures MediaUrls(a + b) == MediaUrls(a) + MediaUrls(b)
    decreases |a|
  {
    if a == [] {
      assert a + b == b;
    } else {
      assert (a + b)[1..] == a[1..] + b;
      MediaUrlsAppend(a[1..], b);
    }
  }

  lemma {:induction false} MediaUrlsOfText(parts: seq<Part>)
    requires forall i :: 0 <= i < |parts| ==> parts[i].Text?
    ensures MediaUrls(parts) == []
    decreases |parts|
  {
    if parts != [] {
      MediaUrlsOfText(parts[1..]);
    }
  }

  lemma {:induction false} MediaUrlsOfMediaParts(uris: seq<string>)
    ensures MediaUrls(MediaParts(uris)) == uris
    decreases |uris|
  {
    if uris != [] {
      MediaUrlsOfMediaParts(uris[1..]);
      assert MediaParts(uris)[1..] == MediaParts(uris[1..]);
    }
  }

  /** The rendered prompt carries exactly the uploaded documents, once each and in
      upload order: reading the media entries back out of the prompt gives
      `fileDataUris`. */
  lemma PromptCarriesDocuments(input: AnalysisInput)
    ensures MediaUrls(BuildPrompt(input)) == input.fileDataUris
  {
    var r := BuildPrompt(input);
    assert r == r[..DocumentsSlot] + r[DocumentsSlot..];
    MediaUrlsAppend(r[..DocumentsSlot], r[DocumentsSlot..]);
    assert forall i :: 0 <= i < DocumentsSlot ==> r[..DocumentsSlot][i] == r[i];
    MediaUrlsOfText(r[..DocumentsSlot]);
    var docs := Documents(input.fileDataUris);
    if input.fileDataUris == [] {
      MediaUrlsOfText(docs);
    } else {
      MediaUrlsAppend([Text(DocumentsIntro)], MediaParts(input.fileDataUris));
      MediaUrlsOfText([Text(DocumentsIntro)]);
      MediaUrlsOfMediaParts(input.fileDataUris);
    }
  }

  /** The "no documents" sentence is emitted exactly when no document was
      uploaded. */
  lemma NoDocumentsSentenceIff(input: AnalysisInput)
    ensures BuildPrompt(input)[DocumentsSlot] == Text(NoDocuments) <==> input.fileDataUris == []
  {
    assert DocumentsIntro != NoDocuments;
  }

  /** With documents, the section opens with its introduction. */
  lemma DocumentsIntroduced(input: AnalysisInput)
    requires input.fileDataUris != []
    ensures BuildPrompt(input)[DocumentsSlot] == Text(DocumentsIntro)
  {
    var p := BuildPrompt(input);
    assert p[DocumentsSlot] == p[DocumentsSlot..][0];
  }

  /** Without any of the three figure groups, every figure line reads
      "Not Provided". */
  lemma NoFiguresNotProvided(input: AnalysisInput)
    requires input.incomeAndInvestments.None? && input.deductionsAndCredits.None? && input.businessAndRental.None?
    ensures forall k :: 0 <= k < |FieldLabels| ==>
      BuildPrompt(input)[FirstFieldSlot + k] == Text(FieldLabels[k] + NotProvided)
  {
    var fields := Fields(input);
    assert forall k :: 0 <= k < |fields| ==> fields[k].None?;
  }

  /** The k-th figure line, `FieldLabels[k]` followed by the text of
      `Fields(input)[k]` (see `BuildPrompt`), shows the field its label
      names: employment, investment and retirement income from the income
      group; mortgage, charity, student loan and other deductions from the
      deductions group; business revenue and expenses and rental income and
      expenses from the business group. */
  lemma FiguresFollowTheirLabels(input: AnalysisInput)
    ensures var f := Fields(input);
      && (input.incomeAndInvestments.Some? ==> var g := input.incomeAndInvestments.value;
        f[0] == g.employmentIncome && f[1] == g.investmentIncome && f[2] == g.retirementContributions)
      && (input.deductionsAndCredits.Some? ==> var g := input.deductionsAndCredits.value;
        f[3] == g.mortgageInterest && f[4] == g.charitableDonations && f[5] == g.studentLoanInterest
        && f[6] == g.otherDeductions)
      && (input.businessAndRental.Some? ==> var g := input.businessAndRental.value;
        f[7] == g.businessRevenue && f[8] == g.businessExpenses && f[9] == g.rentalIncome
        && f[10] == g.rentalExpenses)
  {
    var f := Fields(input);
    assert f[..3][0] == f[0] && f[..3][1] == f[1] && f[..3][2] == f[2];
    assert forall k :: 0 <= k < 4 ==> f[3..7][k] == f[3 + k] && f[7..][k] == f[7 + k];
  }

  /** Empty strings are treated exactly like missing values. */
  function NormalizeValue(value: Option<string>): Option<string> {
    if Given(value) then value else None
  }

  function NormalizeAll(values: seq<Option<string>>): (r: seq<Option<string>>)
    ensures |r| == |values|
    ensures forall k :: 0 <= k < |values| ==> r[k] == NormalizeValue(values[k])
    decreases |values|
  {
    if values == [] then [] else [NormalizeValue(values[0])] + NormalizeAll(values[1..])
  }

  function NormalizeIncome(g: Option<IncomeAndInvestments>): (r: Option<IncomeAndInvestments>)
    ensures IncomeValues(r) == NormalizeAll(IncomeValues(g))
  {
    match g
    case Some(g) =>
      var n := IncomeAndInvestments(NormalizeValue(g.employmentIncome), NormalizeValue(g.investmentIncome),
        NormalizeValue(g.retirementContributions));
      if n == IncomeAndInvestments(None, None, None) then None else Some(n)
    case None => None
  }

  function NormalizeDeductions(g: Option<DeductionsAndCredits>): (r: Option<DeductionsAndCredits>)
    ensures DeductionValues(r) == NormalizeAll(DeductionValues(g))
  {
    match g
    case Some(g) =>
      var n := DeductionsAndCredits(NormalizeValue(g.mortgageInterest), NormalizeValue(g.charitableDonations),
        NormalizeValue(g.studentLoanInterest), NormalizeValue(g.otherDeductions));
      if n == DeductionsAndCredits(None, None, None, None) then None else Some(n)
    case None => None
  }

  function NormalizeBusiness(g: Option<BusinessAndRental>): (r: Option<BusinessAndRental>)
    ensures BusinessValues(r) == NormalizeAll(BusinessValues(g))
  {
    match g
    case Some(g) =>
      var n := BusinessAndRental(NormalizeValue(g.businessRevenue), NormalizeValue(g.businessExpenses),
        NormalizeValue(g.rentalIncome), NormalizeValue(g.rentalExpenses));
      if n == BusinessAndRental(None, None, None, None) then None else Some(n)
    case None => None
  }

  /** The input with every empty optional string removed, and each group
      whose figures are all missing removed. The program never does this;
      it is the reference against which `PromptIgnoresEmptyValues` states
      that the prompt cannot tell the two apart. */
  function Normalize(input: AnalysisInput): (r: AnalysisInput)
    ensures Fields(r) == NormalizeAll(Fields(input))
  {
    var r := input.(additionalNotes := NormalizeValue(input.additionalNotes),
      incomeAndInvestments := NormalizeIncome(input.incomeAndInvestments),
      deductionsAndCredits := NormalizeDeductions(input.deductionsAndCredits),
      businessAndRental := NormalizeBusiness(input.businessAndRental));
    assert Fields(r) == NormalizeAll(Fields(input));
    r
  }

  /** The prompt cannot distinguish an empty string from a missing value,
      nor an empty group from a missing one. */
  lemma PromptIgnoresEmptyValues(input: AnalysisInput)
    ensures BuildPrompt(Normalize(input)) == BuildPrompt(input)
  {
    var n := Normalize(input);
    assert FieldTexts(Fields(n)) == FieldTexts(Fields(input));
    assert WhatIfText(n.additionalNotes) == WhatIfText(input.additionalNotes);
  }
}

=== FILE: base.dfy ===
/** Failure-carrying wrappers shared by every module of the model: `Option` for
    the source's `undefined`/`null` results, `Result` for code paths that throw. */
module Base {

  datatype Option<+T> = None | Some(value: T) {

    /** `Success` with the value, or `Failure(error)` when absent. */
    function ToResultWith<E>(error: E): Result<T, E> {
      match this
      case Some(v) => Success(v)
      case None => Failure(error)
    }
  }

  datatype Result<+T, +E> = Success(value: T) | Failure(error: E) {

    predicate IsFailure() {
      Failure?
    }

    function PropagateFailure<U>(): Result<U, E>
      requires Failure?
    {
      Failure(error)
    }

    function Extract(): T
      requires Success?
    {
      value
    }
  }
}

=== FILE: chat_assistant.dfy ===
/** The chat panel on the report page (`ChatAssistant`): the transcript, the
    input box, the loading flag and the send handler, which appends the
    user's turn optimistically and then either appends the reply or rolls
    the turn back. Each handler is one atomic transition; the awaited flow
    call is split into `Submit` (up to the call) and `Settle` (after it). */
module ChatAssistant {
  import opened JsText
  import opened TaxSchema
  import opened ChatFlow

  datatype ChatState = ChatState(
    isOpen: bool,
    messages: seq<Turn>,
    input: string,
    loading: bool,
    hasStartedChat: bool)

  const InitialChat := ChatState(false, [], "", false, false)

  /** What the flow call gave back: a text, or a thrown error. A missing
      output is an empty text here, since both fail the same truthiness
      test. */
  datatype Reply = Answered(text: string) | Errored

  /** The first half of `handleSendMessage`: `Ignored` when the guard
      returns early, else the state set before the await and the history
      handed to the flow. */
  datatype SendStep = Ignored | Sent(pending: ChatState, history: seq<Turn>)

  /** The panel's toggle button. */
  function ToggleOpen(st: ChatState): (r: ChatState)
    ensures r.isOpen == !st.isOpen
    ensures r.(isOpen := st.isOpen) == st
  {
    st.(isOpen := !st.isOpen)
  }

  /** The header's close button. */
  function Close(st: ChatState): (r: ChatState)
    ensures !r.isOpen
    ensures r.(isOpen := st.isOpen) == st
  {
    st.(isOpen := false)
  }

  /** Closing is the same as toggling an open panel, and closing twice is
      closing once. */
  lemma CloseIsToggleWhenOpen(st: ChatState)
    ensures st.isOpen ==> Close(st) == ToggleOpen(st)
    ensures Close(Close(st)) == Close(st)
  {
  }

  /** The input box's `onChange`. */
  function SetInput(st: ChatState, text: string): (r: ChatState)
    ensures r.input == text && r.(input := st.input) == st
  {
    st.(input := text)
  }

  /** Up to the await: nothing happens when the trimmed input is empty or a
      reply is pending; otherwise the untrimmed input becomes a user turn,
      the box is cleared and loading starts. */
  function Submit(st: ChatState): (r: SendStep)
    ensures r.Ignored? <==> IsBlank(st.input) || st.loading
    ensures r.Sent? ==>
      && r.pending.messages == st.messages + [Turn(User, st.input)]
      && r.pending.input == ""
      && r.pending.loading
      && r.pending.isOpen == st.isOpen
      && r.pending.hasStartedChat == st.hasStartedChat
      && r.history == r.pending.messages
  {
    if Trim(st.input) == [] || st.loading then Ignored
    else
      var messages := st.messages + [Turn(User, st.input)];
      Sent(st.(messages := messages, input := "", loading := true), messages)
  }

  /** `prev.slice(0, -1)`: everything but the last entry, and nothing of an
      empty list. */
  function DropLast(ms: seq<Turn>): (r: seq<Turn>)
    ensures ms != [] ==> r + [ms[|ms| - 1]] == ms
    ensures ms == [] ==> r == []
  {
    if ms == [] then [] else ms[..|ms| - 1]
  }

  /** After the await: a non-empty reply is appended as one model turn;
      an empty reply or an error removes the last turn. Loading always
      ends and the chat counts as started. */
  function Settle(st: ChatState, reply: Reply): (r: ChatState)
    ensures !r.loading && r.hasStartedChat
    ensures reply.Answered? && reply.text != [] ==> r.messages == st.messages + [Turn(Model, reply.text)]
    ensures !(reply.Answered? && reply.text != []) ==> r.messages == DropLast(st.messages)
    ensures r.input == st.input && r.isOpen == st.isOpen
  {
    var messages := match reply
      case Answered(text) => if text != [] then st.messages + [Turn(Model, text)] else DropLast(st.messages)
      case Errored => DropLast(st.messages);
    st.(messages := messages, loading := false, hasStartedChat := true)
  }

  /** The whole handler, with the flow's reply given. */
  function HandleSendMessage(st: ChatState, reply: Reply): ChatState {
    match Submit(st)
    case Ignored => st
    case Sent(pending, _) => Settle(pending, reply)
  }

  /** A guarded send changes nothing at all. */
  lemma IgnoredSendIsNoOp(st: ChatState, reply: Reply)
    requires IsBlank(st.input) || st.loading
    ensures HandleSendMessage(st, reply) == st
  {
  }

  /** The history handed to the flow is never empty and ends with the
      user's turn, so the flow builds its request and prompts the model with
      exactly what the user typed. */
  lemma SentHistoryIsAccepted(st: ChatState, report: AnalysisOutput, serialize: AnalysisOutput -> string)
    requires Submit(st).Sent?
    ensures var h := Submit(st).history;
      && h != [] && h[|h| - 1] == Turn(User, st.input)
      && BuildRequest(report, h, serialize).Success?
      && BuildRequest(report, h, serialize).value.prompt == st.input
  {
  }

  /** A failed or empty reply rolls the transcript back to its value before
      the send, while the input stays cleared. */
  lemma FailedSendRollsBack(st: ChatState, reply: Reply)
    requires Submit(st).Sent?
    requires reply.Errored? || reply.text == []
    ensures HandleSendMessage(st, reply).messages == st.messages
    ensures HandleSendMessage(st, reply).input == ""
  {
    var p := Submit(st).pending;
    assert DropLast(p.messages) + [Turn(User, st.input)] == st.messages + [Turn(User, st.input)];
  }

  /** A successful send adds exactly the user's turn and the reply. */
  lemma AnsweredSendAppendsPair(st: ChatState, text: string)
    requires Submit(st).Sent? && text != []
    ensures HandleSendMessage(st, Answered(text)).messages
      == st.messages + [Turn(User, st.input), Turn(Model, text)]
  {
  }

  /** The transcript alternates user and model turns, starting with the
      user. */
  predicate Alternating(ms: seq<Turn>) {
    forall i :: 0 <= i < |ms| ==> ms[i].role == (if i % 2 == 0 then User else Model)
  }

  /** Between sends the transcript is a sequence of complete exchanges, and
      every send keeps it so. */
  lemma SendKeepsExchanges(st: ChatState, reply: Reply)
    requires Alternating(st.messages) && |st.messages| % 2 == 0
    ensures var ms := HandleSendMessage(st, reply).messages;
      Alternating(ms) && |ms| % 2 == 0
  {
    if Submit(st).Sent? {
      if reply.Answered? && reply.text != [] {
        AnsweredSendAppendsPair(st, reply.text);
      } else {
        FailedSendRollsBack(st, reply);
      }
    }
  }
}

=== FILE: chat_flow.dfy ===
/** The server side of the report chat (`chatWithReportFlow`): the turn
    type the input schema accepts, and the generation request the flow
    assembles from the report and the transcript. The model call itself is
    not part of this model; the request is what it would be given. */
module ChatFlow {
  import opened Base
  import opened TaxSchema

  /** `z.enum(['user', 'model'])`. */
  datatype Role = User | Model

  function RoleName(role: Role): string {
    match role
    case User => "user"
    case Model => "model"
  }

  /** The enum check on a turn's role: only the two names are accepted. */
  function ParseRole(name: string): (r: Option<Role>)
    ensures r.Some? <==> name == "user" || name == "model"
    ensures r.Some? ==> RoleName(r.value) == name
  {
    if name == "user" then Some(User)
    else if name == "model" then Some(Model)
    else None
  }

  lemma RoleRoundTrip(role: Role)
    ensures ParseRole(RoleName(role)) == Some(role)
  {
  }

  /** One transcript entry, `{ role, content }`. */
  datatype Turn = Turn(role: Role, content: string)

  /** The roles of the history the model is given: the system turn and the
      two transcript roles. */
  datatype MessageRole = SystemRole | TurnRole(role: Role)

  datatype Message = Message(role: MessageRole, content: string)

  datatype Tool = GoogleSearch

  /** What `ai.generate` is called with. */
  datatype Request = Request(model: string, tools: seq<Tool>, history: seq<Message>, prompt: string)

  /** Reading the last turn's content of an empty transcript throws. */
  datatype ChatError = EmptyHistory

  const ChatModel := "gemini-2.5-flash"

  /** The system prompt up to and including the opening of the fenced JSON
      block that holds the report. */
  const SystemPreamble :=
    "You are an expert financial assistant. Your role is to answer follow-up questions from the user based on the detailed financial analysis report provided below.\n"
    + "Be helpful, clear, and concise. Do not provide financial advice, but explain concepts and the information in the report clearly.\n"
    + "Base your answers ONLY on the provided report context.\n\n"
    + "**Web Search Instructions:**\n"
    + "If the user asks a question that CANNOT be answered from the report, you MUST use the provided web search tool to find an answer.\n"
    + "When you use web search, you MUST:\n"
    + "1.  Clearly state that the information comes from a web search and is not part of their personal report (e.g., \"I looked this up online and found that...\").\n"
    + "2.  Format the answer in a clean, readable way. Use bullet points or short paragraphs.\n"
    + "3.  Synthesize the information into a helpful response. Do not just copy-paste search results.\n\n"
    + "Here is the user's financial report:\n"
    + "```json\n"

  /** The closing of the fenced block. */
  const SystemClosing := "\n```"

  /** The system prompt around the serialised report. */
  function SystemPrompt(reportJson: string): (r: string)
    ensures |r| == |SystemPreamble| + |reportJson| + |SystemClosing|
    ensures r[..|SystemPreamble|] == SystemPreamble
    ensures r[|SystemPreamble|..|r| - |SystemClosing|] == reportJson
    ensures r[|r| - |SystemClosing|..] == SystemClosing
  {
    var r := SystemPreamble + reportJson + SystemClosing;
    assert r[..|SystemPreamble|] == SystemPreamble;
    assert r[|SystemPreamble|..|r| - |SystemClosing|] == reportJson;
    r
  }

  /** The report text can be read back out of the system prompt, so the
      prompt carries the serialised report unaltered and two different
      serialisations give two different prompts. */
  function EmbeddedReport(prompt: string): string
    requires |prompt| >= |SystemPreamble| + |SystemClosing|
  {
    prompt[|SystemPreamble|..|prompt| - |SystemClosing|]
  }

  lemma EmbeddedReportRoundTrip(reportJson: string)
    ensures EmbeddedReport(SystemPrompt(reportJson)) == reportJson
  {
  }

  lemma SystemPromptInjective(a: string, b: string)
    requires SystemPrompt(a) == SystemPrompt(b)
    ensures a == b
  {
    EmbeddedReportRoundTrip(a);
    EmbeddedReportRoundTrip(b);
  }

  function ToMessage(t: Turn): Message {
    Message(TurnRole(t.role), t.content)
  }

  /** `chatHistory.map(msg => ({ role: msg.role, content: msg.content }))`. */
  function ToMessages(turns: seq<Turn>): (r: seq<Message>)
    ensures |r| == |turns|
    ensures forall i :: 0 <= i < |turns| ==> r[i].role == TurnRole(turns[i].role) && r[i].content == turns[i].content
    decreases |turns|
  {
    if turns == [] then [] else [ToMessage(turns[0])] + ToMessages(turns[1..])
  }

  /** The inverse of `ToMessages` on transcript roles; the system turn has no
      transcript counterpart and is skipped. */
  function ToTurns(messages: seq<Message>): seq<Turn>
    decreases |messages|
  {
    if messages == [] then []
    else
      var rest := ToTurns(messages[1..]);
      match messages[0].role
      case SystemRole => rest
      case TurnRole(role) => [Turn(role, messages[0].content)] + rest
  }

  lemma {:induction false} TurnsRoundTrip(turns: seq<Turn>)
    ensures ToTurns(ToMessages(turns)) == turns
    decreases |turns|
  {
    if turns != [] {
      TurnsRoundTrip(turns[1..]);
      assert ToMessages(turns)[1..] == ToMessages(turns[1..]);
      assert [turns[0]] + turns[1..] == turns;
    }
  }

  /** The flow body: the system turn holding the serialised report, then
      the caller's turns, with the last turn's content as the prompt and the
      search tool always granted. `serialize` stands for
      `JSON.stringify(analysisResult, null, 2)`. */
  function BuildRequest(report: AnalysisOutput, chatHistory: seq<Turn>, serialize: AnalysisOutput -> string): (r: Result<Request, ChatError>)
    ensures r.Failure? <==> chatHistory == []
    ensures r.Success? ==>
      && r.value.model == ChatModel
      && r.value.tools == [GoogleSearch]
      && |r.value.history| == |chatHistory| + 1
      && r.value.history[0] == Message(SystemRole, SystemPrompt(serialize(report)))
      && r.value.history[1..] == ToMessages(chatHistory)
      && r.value.prompt == chatHistory[|chatHistory| - 1].content
  {
    if chatHistory == [] then Failure(EmptyHistory)
    else
      var history := [Message(SystemRole, SystemPrompt(serialize(report)))] + ToMessages(chatHistory);
      assert history[1..] == ToMessages(chatHistory);
      Success(Request(ChatModel, [GoogleSearch], history, chatHistory[|chatHistory| - 1].content))
  }

  /** A built request determines the transcript it came from and, when the
      serialisation is injective, the report: nothing is dropped or
      reordered on the way to the model. */
  lemma RequestDeterminesInputs(report: AnalysisOutput, turns: seq<Turn>, serialize: AnalysisOutput -> string)
    requires turns != []
    ensures var req := BuildRequest(report, turns, serialize).value;
      && ToTurns(req.history) == turns
      && EmbeddedReport(req.history[0].content) == serialize(report)
  {
    var req := BuildRequest(report, turns, serialize).value;
    assert req.history == [req.history[0]] + req.history[1..];
    TurnsRoundTrip(turns);
    EmbeddedReportRoundTrip(serialize(report));
  }
}

=== FILE: history_page.dfy ===
/** The history page (`HistoryPage`): the rename editor, the newest-first
    list and the savings total shown on each card. */
module HistoryPage {
  import opened Base
  import opened JsText
  import opened Sorting
  import opened HistoryStore

  /** `editingReportId` and the `newName` buffer. */
  datatype Editor = Editor(editingId: Option<string>, buffer: string)

  const Idle := Editor(None, "")

  /** `handleStartEdit`: edit mode for the report, the buffer seeded with
      its current name. */
  function StartEdit(e: Editor, report: Report): (r: Editor)
    ensures r.editingId == Some(report.id) && r.buffer == report.name
  {
    Editor(Some(report.id), report.name)
  }

  /** The input's `onChange`. */
  function Type(e: Editor, text: string): (r: Editor)
    ensures r.buffer == text && r.editingId == e.editingId
  {
    e.(buffer := text)
  }

  /** `handleSaveName(reportId)`: a buffer that is blank after trimming
      renames nothing; otherwise the report is renamed to the trimmed text.
      Either way the editor closes with an empty buffer. */
  function SaveName(st: Store, e: Editor, id: string): (r: (Store, Editor))
    ensures r.1 == Idle
    ensures IsBlank(e.buffer) ==> r.0 == st
    ensures !IsBlank(e.buffer) ==> r.0 == UpdateReportName(st, id, Trim(e.buffer))
  {
    var st' := if Trim(e.buffer) != [] then UpdateReportName(st, id, Trim(e.buffer)) else st;
    (st', Editor(None, ""))
  }

  /** The Cancel button: leaves edit mode, keeps the buffer's text, and
      renames nothing (it never touches the store). */
  function Cancel(e: Editor): (r: Editor)
    ensures r.editingId.None? && r.buffer == e.buffer
  {
    e.(editingId := None)
  }

  /** A saved name is never blank and never padded with whitespace. */
  lemma SavedNameIsTrimmed(st: Store, e: Editor, id: string, i: nat)
    requires st.mounted && !IsBlank(e.buffer)
    requires i < |st.reports| && st.reports[i].id == id
    ensures var name := SaveName(st, e, id).0.reports[i].name;
      name != [] && Unpadded(name)
  {
  }

  /** Opening the editor and saving without typing leaves the report as it
      was, provided its name was already trimmed and no other report
      shares its id. */
  lemma SaveUntouchedName(st: Store, i: nat)
    requires st.mounted && i < |st.reports|
    requires forall j :: 0 <= j < |st.reports| && j != i ==> st.reports[j].id != st.reports[i].id
    requires st.reports[i].name != [] && Unpadded(st.reports[i].name)
    ensures SaveName(st, StartEdit(Idle, st.reports[i]), st.reports[i].id).0.reports == st.reports
  {
    var name := st.reports[i].name;
    assert [] + name + [] == name;
    TrimOfPadded([], name, []);
    var r := Renamed(st.reports, st.reports[i].id, name);
    assert forall j :: 0 <= j < |r| ==> r[j] == st.reports[j];
  }

  /** `new Date(createdAt).getTime()`, given as the caller's time reading. */
  function CreatedTime(timeOf: string -> int): Report -> real {
    (r: Report) => timeOf(r.createdAt) as real
  }

  /** `[...reports].sort(...)`: newest first, and a permutation of the
      reports; the store's own list is a separate value and keeps its
      order. */
  function SortedReports(reports: seq<Report>, timeOf: string -> int): (r: seq<Report>)
    ensures SortedDesc(r, CreatedTime(timeOf))
    ensures multiset(r) == multiset(reports)
  {
    SortDesc(reports, CreatedTime(timeOf))
  }
}

=== FILE: history_store.dfy ===
/** The report history kept in the browser (`useHistory`): a list of reports
    mirrored into local storage, with add, delete, rename, find and clear.
    Every operation is guarded by the `isMounted` flag that the mount effect
    sets, and does nothing before it. Storage is abstracted: the stored text
    is modelled by what reading it back gives. */
module HistoryStore {
  import opened Base
  import opened TaxSchema

  /** The form values a report was generated from. */
  datatype ReportInputs = ReportInputs(country: string, analysisType: string, taxYear: string)

  datatype Report = Report(
    id: string,
    name: string,
    createdAt: string,
    result: AnalysisOutput,
    inputs: ReportInputs)

  /** What the history key of local storage holds: nothing (or the empty
      text), text that `JSON.parse` rejects, or a saved list of reports. */
  datatype Storage = Empty | Unreadable | Holds(reports: seq<Report>)

  /** The hook's state: the in-memory list, the persisted copy, and whether
      the mount effect has run. */
  datatype Store = Store(reports: seq<Report>, storage: Storage, mounted: bool)

  /** The in-memory list agrees with what storage would give back on the
      next mount. */
  predicate Synced(st: Store) {
    match st.storage
    case Holds(saved) => saved == st.reports
    case _ => st.reports == []
  }

  /** The state before the mount effect: an empty list over whatever storage
      holds. */
  function Initial(stored: Storage): (st: Store)
    ensures !st.mounted && st.reports == [] && st.storage == stored
  {
    Store([], stored, false)
  }

  /** The mount effect: the flag is set and a readable saved list replaces
      the empty one; an empty or unreadable entry leaves the list empty. */
  function Mount(st: Store): (r: Store)
    ensures r.mounted && r.storage == st.storage
    ensures st.storage.Holds? ==> r.reports == st.storage.reports
    ensures !st.storage.Holds? ==> r.reports == st.reports
    ensures st.reports == [] ==> Synced(r)
  {
    match st.storage
    case Holds(saved) => Store(saved, st.storage, true)
    case _ => st.(mounted := true)
  }

  /** `saveReports`: memory and storage both take the new list. */
  function Save(st: Store, updated: seq<Report>): (r: Store)
    ensures r.reports == updated && r.storage == Holds(updated)
    ensures r.mounted == st.mounted
    ensures Synced(r)
  {
    st.(reports := updated, storage := Holds(updated))
  }

  /** `reports.filter(report => report.id !== reportId)`. */
  function Without(reports: seq<Report>, id: string): (r: seq<Report>)
    ensures forall x :: x in r <==> x in reports && x.id != id
    ensures |r| <= |reports|
    decreases |reports|
  {
    if reports == [] then []
    else if reports[0].id == id then Without(reports[1..], id)
    else [reports[0]] + Without(reports[1..], id)
  }

  /** `{ ...report, name: newName }` for the reports with the given id. */
  function Renamed(reports: seq<Report>, id: string, name: string): (r: seq<Report>)
    ensures |r| == |reports|
    ensures forall i :: 0 <= i < |r| ==>
      && r[i].(name := reports[i].name) == reports[i]
      && (reports[i].id == id ==> r[i].name == name)
      && (reports[i].id != id ==> r[i] == reports[i])
    decreases |reports|
  {
    if reports == [] then []
    else
      var head := if reports[0].id == id then reports[0].(name := name) else reports[0];
      [head] + Renamed(reports[1..], id, name)
  }

  /** `reports.find(report => report.id === reportId)`: the first report
      carrying the id. */
  function FindById(reports: seq<Report>, id: string): (r: Option<Report>)
    ensures r.None? <==> forall i :: 0 <= i < |reports| ==> reports[i].id != id
    ensures r.Some? ==> r.value.id == id && exists i :: (0 <= i < |reports| && reports[i] == r.value
      && forall j :: 0 <= j < i ==> reports[j].id != id)
    decreases |reports|
  {
    if reports == [] then None
    else if reports[0].id == id then Some(reports[0])
    else
      var rest := FindById(reports[1..], id);
      if rest.Some? then
        var i :| 0 <= i < |reports[1..]| && reports[1..][i] == rest.value
          && forall j :: 0 <= j < i ==> reports[1..][j].id != id;
        assert reports[i + 1] == rest.value;
        rest
      else rest
  }

  function AddReport(st: Store, report: Report): (r: Store)
    ensures !st.mounted ==> r == st
    ensures st.mounted ==> r.reports == st.reports + [report] && r.storage == Holds(r.reports)
    ensures r.mounted == st.mounted
    ensures Synced(st) ==> Synced(r)
  {
    if !st.mounted then st else Save(st, st.reports + [report])
  }

  function DeleteReport(st: Store, id: string): (r: Store)
    ensures !st.mounted ==> r == st
    ensures st.mounted ==> r.reports == Without(st.reports, id) && r.storage == Holds(r.reports)
    ensures r.mounted == st.mounted
    ensures Synced(st) ==> Synced(r)
  {
    if !st.mounted then st else Save(st, Without(st.reports, id))
  }

  function UpdateReportName(st: Store, id: string, name: string): (r: Store)
    ensures !st.mounted ==> r == st
    ensures st.mounted ==> r.reports == Renamed(st.reports, id, name) && r.storage == Holds(r.reports)
    ensures r.mounted == st.mounted
    ensures Synced(st) ==> Synced(r)
  {
    if !st.mounted then st else Save(st, Renamed(st.reports, id, name))
  }

  function GetReportById(st: Store, id: string): (r: Option<Report>)
    ensures !st.mounted ==> r.None?
    ensures st.mounted ==> r == FindById(st.reports, id)
  {
    if !st.mounted then None else FindById(st.reports, id)
  }

  function ClearHistory(st: Store): (r: Store)
    ensures !st.mounted ==> r == st
    ensures st.mounted ==> r.reports == [] && r.storage == Holds([])
    ensures r.mounted == st.mounted
    ensures Synced(st) ==> Synced(r)
  {
    if !st.mounted then st else Save(st, [])
  }

  /** Filtering distributes over concatenation: it keeps the surviving
      reports in their original order. */
  lemma {:induction false} WithoutAppend(a: seq<Report>, b: seq<Report>, id: string)
    ensures Without(a + b, id) == Without(a, id) + Without(b, id)
    decreases |a|
  {
    if a == [] {
      assert a + b == b;
    } else {
      assert (a + b)[1..] == a[1..] + b;
      WithoutAppend(a[1..], b, id);
    }
  }

  /** A list with no report carrying the id is left as it is. */
  lemma {:induction false} WithoutAbsent(reports: seq<Report>, id: string)
    requires forall i :: 0 <= i < |reports| ==> reports[i].id != id
    ensures Without(reports, id) == reports
    decreases |reports|
  {
    if reports != [] {
      WithoutAbsent(reports[1..], id);
      assert [reports[0]] + reports[1..] == reports;
    }
  }

  /** Deleting is idempotent. */
  lemma DeleteTwice(st: Store, id: string)
    ensures DeleteReport(DeleteReport(st, id), id) == DeleteReport(st, id)
  {
    if st.mounted {
      var once := Without(st.reports, id);
      assert forall i :: 0 <= i < |once| ==> once[i] in once;
      WithoutAbsent(once, id);
    }
  }

  /** Adding a report whose id is new and deleting that id gives back the
      list from before the add. */
  lemma DeleteUndoesAdd(st: Store, report: Report)
    requires st.mounted
    requires forall i :: 0 <= i < |st.reports| ==> st.reports[i].id != report.id
    ensures DeleteReport(AddReport(st, report), report.id).reports == st.reports
  {
    WithoutAppend(st.reports, [report], report.id);
    WithoutAbsent(st.reports, report.id);
    assert Without([report], report.id) == [];
  }

  /** After an add, looking the id up finds the new report unless an older
      report already carries that id. */
  lemma {:induction false} FindAfterAppend(reports: seq<Report>, report: Report)
    requires forall i :: 0 <= i < |reports| ==> reports[i].id != report.id
    ensures FindById(reports + [report], report.id) == Some(report)
    decreases |reports|
  {
    if reports != [] {
      assert (reports + [report])[1..] == reports[1..] + [report];
      FindAfterAppend(reports[1..], report);
    }
  }

  lemma GetAfterAdd(st: Store, report: Report)
    requires st.mounted
    requires forall i :: 0 <= i < |st.reports| ==> st.reports[i].id != report.id
    ensures GetReportById(AddReport(st, report), report.id) == Some(report)
  {
    FindAfterAppend(st.reports, report);
  }

  /** Once deleted, an id is not found. */
  lemma GetAfterDelete(st: Store, id: string)
    ensures GetReportById(DeleteReport(st, id), id).None?
  {
    var r := DeleteReport(st, id).reports;
    assert forall i :: 0 <= i < |r| ==> r[i] in r;
  }

  /** Renaming twice keeps only the second name. */
  lemma RenameTwice(rs: seq<Report>, id: string, first: string, second: string)
    ensures Renamed(Renamed(rs, id, first), id, second) == Renamed(rs, id, second)
  {
  }

  /** Renaming changes what a lookup by that id finds only in its name. */
  lemma {:induction false} FindAfterRename(rs: seq<Report>, id: string, name: string)
    ensures FindById(Renamed(rs, id, name), id) ==
      (match FindById(rs, id) case None => None case Some(x) => Some(x.(name := name)))
    decreases |rs|
  {
    if rs != [] {
      FindAfterRename(rs[1..], id, name);
      assert Renamed(rs, id, name)[1..] == Renamed(rs[1..], id, name);
    }
  }

  /** A lookup after clearing finds nothing. */
  lemma GetAfterClear(st: Store, id: string)
    ensures GetReportById(ClearHistory(st), id).None?
  {
  }
}

=== FILE: js_number.dfy ===
/** JavaScript numbers as far as the presentation code uses them: a finite
    value or NaN, NaN-absorbing addition, and `parseFloat` on decimal text. */
module JsNumber {
  import opened JsText

  /** A JavaScript number: a finite value (kept as an exact real) or NaN. */
  datatype Number = Num(value: real) | NaN

  /** `a + b`: NaN as soon as either side is NaN. */
  function Plus(a: Number, b: Number): (r: Number)
    ensures r.NaN? <==> a.NaN? || b.NaN?
    ensures r.Num? ==> r.value == a.value + b.value
  {
    if a.Num? && b.Num? then Num(a.value + b.value) else NaN
  }

  /** `(a + b) / 2`. */
  function Mean(a: Number, b: Number): (r: Number)
    ensures r.NaN? <==> a.NaN? || b.NaN?
    ensures r.Num? ==> a.value <= r.value <= b.value || b.value <= r.value <= a.value
  {
    match Plus(a, b)
    case Num(v) => Num(v / 2.0)
    case NaN => NaN
  }

  /** `n > 0`, which is false for NaN. */
  predicate IsPositive(n: Number) {
    n.Num? && n.value > 0.0
  }

  predicate IsDigit(c: char) {
    '0' <= c <= '9'
  }

  predicate AllDigits(s: string) {
    forall i :: 0 <= i < |s| ==> IsDigit(s[i])
  }

  function DigitValue(c: char): nat
    requires IsDigit(c)
  {
    c as int - '0' as int
  }

  /** The longest prefix of `s` made of decimal digits. */
  function LeadingDigits(s: string): (r: string)
    ensures |r| <= |s| && r == s[..|r|]
    ensures AllDigits(r)
    ensures |r| == |s| || !IsDigit(s[|r|])
    decreases |s|
  {
    if |s| > 0 && IsDigit(s[0]) then [s[0]] + LeadingDigits(s[1..]) else []
  }

  /** The value of a string of decimal digits, most significant first. */
  function DigitsValue(ds: string): nat
    requires AllDigits(ds)
    decreases |ds|
  {
    if ds == [] then 0 else DigitsValue(ds[..|ds| - 1]) * 10 + DigitValue(ds[|ds| - 1])
  }

  /** The value of the digits after a decimal point: 0.d1d2d3... */
  function FractionValue(ds: string): (r: real)
    requires AllDigits(ds)
    ensures 0.0 <= r <= 1.0
    decreases |ds|
  {
    if ds == [] then 0.0 else (DigitValue(ds[0]) as real + FractionValue(ds[1..])) / 10.0
  }

  /** Text that `parseFloat` reads as a number: after an optional sign, a
      digit, or a point followed by a digit. */
  predicate StartsNumeric(t: string) {
    var u := if |t| > 0 && (t[0] == '+' || t[0] == '-') then t[1..] else t;
    (|u| > 0 && IsDigit(u[0])) || (|u| > 1 && u[0] == '.' && IsDigit(u[1]))
  }

  /** `parseFloat(s)`: leading whitespace skipped, then the longest prefix of
      the form sign? digits ('.' digits)? is read; NaN when that prefix holds
      no digit. */
  function ParseFloat(s: string): (r: Number)
    ensures r.Num? <==> StartsNumeric(TrimStart(s))
  {
    var t := TrimStart(s);
    var negative := |t| > 0 && t[0] == '-';
    var u := if |t| > 0 && (t[0] == '+' || t[0] == '-') then t[1..] else t;
    var whole := LeadingDigits(u);
    var rest := u[|whole|..];
    var frac := if |rest| > 0 && rest[0] == '.' then LeadingDigits(rest[1..]) else [];
    if whole == [] && frac == [] then NaN
    else
      var magnitude := DigitsValue(whole) as real + FractionValue(frac);
      Num(if negative then -magnitude else magnitude)
  }

  /** The decimal text of `n`, without sign or leading zeros. */
  function NatText(n: nat): (r: string)
    ensures |r| >= 1 && AllDigits(r)
  {
    if n < 10 then [('0' as int + n) as char]
    else NatText(n / 10) + [('0' as int + n % 10) as char]
  }

  lemma {:induction false} NatTextValue(n: nat)
    ensures DigitsValue(NatText(n)) == n
  {
    if n >= 10 {
      NatTextValue(n / 10);
      var r := NatText(n);
      assert r[..|r| - 1] == NatText(n / 10);
    }
  }

  lemma {:induction false} LeadingDigitsOfDigits(s: string)
    requires AllDigits(s)
    ensures LeadingDigits(s) == s
    decreases |s|
  {
    if s != [] {
      LeadingDigitsOfDigits(s[1..]);
      assert [s[0]] + s[1..] == s;
    }
  }

  /** `parseFloat` reads back the decimal text of every natural number. */
  lemma ParseFloatNatText(n: nat)
    ensures ParseFloat(NatText(n)) == Num(n as real)
  {
    var t := NatText(n);
    assert IsDigit(t[0]) && !IsSpace(t[0]) && t[0] != '+' && t[0] != '-';
    assert TrimStart(t) == t;
    LeadingDigitsOfDigits(t);
    assert t[|t|..] == [];
    NatTextValue(n);
    assert FractionValue([]) == 0.0;
  }
}

=== FILE: js_text.dfy ===
/** The JavaScript string primitives the source relies on, written out:
    `String.prototype.trim`, `split` on a one-character separator, and the
    global `replace` of a character class by the empty string. */
module JsText {

  /** A code point that `trim` removes: the ECMAScript WhiteSpace set (tab,
      vertical tab, form feed, space, no-break space, the byte-order mark and
      the Unicode space separators) together with the LineTerminator set. */
  predicate IsSpace(c: char) {
    || c == '\t' || c == '\n' || c == '\U{000B}' || c == '\U{000C}' || c == '\r'
    || c == ' ' || c == '\U{00A0}' || c == '\U{1680}'
    || ('\U{2000}' <= c <= '\U{200A}')
    || c == '\U{2028}' || c == '\U{2029}' || c == '\U{202F}' || c == '\U{205F}'
    || c == '\U{3000}' || c == '\U{FEFF}'
  }

  predicate AllSpace(s: string) {
    forall i :: 0 <= i < |s| ==> IsSpace(s[i])
  }

  /** `s` has no removable whitespace at either end. */
  predicate Unpadded(s: string) {
    s == [] || (!IsSpace(s[0]) && !IsSpace(s[|s| - 1]))
  }

  /** Leading whitespace removed. */
  function TrimStart(s: string): (r: string)
    ensures |r| <= |s|
    ensures r == [] || !IsSpace(r[0])
    decreases |s|
  {
    if |s| > 0 && IsSpace(s[0]) then TrimStart(s[1..]) else s
  }

  /** What `TrimStart` drops is a run of whitespace and what it keeps is the
      rest of `s`. */
  lemma {:induction false} TrimStartDrops(s: string)
    ensures TrimStart(s) == s[|s| - |TrimStart(s)|..]
    ensures AllSpace(s[..|s| - |TrimStart(s)|])
    decreases |s|
  {
    if |s| > 0 && IsSpace(s[0]) {
      TrimStartDrops(s[1..]);
      var r := TrimStart(s);
      assert s[..|s| - |r|] == [s[0]] + s[1..][..|s| - 1 - |r|];
    }
  }

  /** Trailing whitespace removed. */
  function TrimEnd(s: string): (r: string)
    ensures |r| <= |s|
    ensures r == [] || !IsSpace(r[|r| - 1])
    decreases |s|
  {
    if |s| > 0 && IsSpace(s[|s| - 1]) then TrimEnd(s[..|s| - 1]) else s
  }

  lemma {:induction false} TrimEndDrops(s: string)
    ensures TrimEnd(s) == s[..|TrimEnd(s)|]
    ensures AllSpace(s[|TrimEnd(s)|..])
    decreases |s|
  {
    if |s| > 0 && IsSpace(s[|s| - 1]) {
      TrimEndDrops(s[..|s| - 1]);
      var r := TrimEnd(s);
      assert s[|r|..] == s[..|s| - 1][|r|..] + [s[|s| - 1]];
    }
  }

  /** `String.prototype.trim`. */
  function Trim(s: string): (r: string)
    ensures Unpadded(r)
    ensures |r| <= |s|
  {
    var t := TrimStart(s);
    TrimEndDrops(t);
    var r := TrimEnd(t);
    assert Unpadded(r) by {
      if r != [] {
        assert r[0] == t[..|r|][0] == t[0];
      }
    }
    r
  }

  /** How many whitespace characters open `s`. */
  function LeadingSpace(s: string): nat {
    |s| - |TrimStart(s)|
  }

  /** `trim` keeps one contiguous slice of `s` and everything it cuts on
      either side is whitespace. */
  lemma TrimIsSlice(s: string)
    ensures var i, r := LeadingSpace(s), Trim(s);
      && i + |r| <= |s|
      && r == s[i..i + |r|]
      && AllSpace(s[..i]) && AllSpace(s[i + |r|..])
  {
    var t := TrimStart(s);
    TrimStartDrops(s);
    TrimEndDrops(t);
    var i, r := |s| - |t|, TrimEnd(t);
    assert Trim(s) == r;
    assert t == s[i..];
    assert r == t[..|r|];
    assert r == s[i..i + |r|];
    assert s[i + |r|..] == t[|r|..];
  }

  /** JavaScript truthiness of `s.trim()`. */
  predicate IsBlank(s: string) {
    Trim(s) == []
  }

  lemma {:induction false} TrimStartPadded(a: string, s: string)
    requires AllSpace(a)
    requires s == [] || !IsSpace(s[0])
    ensures TrimStart(a + s) == s
    decreases |a|
  {
    if a != [] {
      assert (a + s)[1..] == a[1..] + s;
      TrimStartPadded(a[1..], s);
    } else {
      assert a + s == s;
    }
  }

  lemma {:induction false} TrimEndPadded(s: string, b: string)
    requires AllSpace(b)
    requires s == [] || !IsSpace(s[|s| - 1])
    ensures TrimEnd(s + b) == s
    decreases |b|
  {
    if b != [] {
      assert (s + b)[..|s + b| - 1] == s + b[..|b| - 1];
      TrimEndPadded(s, b[..|b| - 1]);
    } else {
      assert s + b == s;
    }
  }

  /** Trim is exact: whitespace padding on either side of an unpadded string
      is precisely what it removes. */
  lemma TrimOfPadded(a: string, s: string, b: string)
    requires AllSpace(a) && AllSpace(b) && Unpadded(s)
    ensures Trim(a + s + b) == s
  {
    if s == [] {
      assert a + s + b == a + b;
      assert AllSpace(a + b);
      AllSpaceTrimsToEmpty(a + b);
    } else {
      assert a + s + b == a + (s + b);
      TrimStartPadded(a, s + b);
      TrimEndPadded(s, b);
    }
  }

  lemma AllSpaceTrimsToEmpty(s: string)
    requires AllSpace(s)
    ensures Trim(s) == []
  {
    TrimStartDrops(s);
    assert TrimStart(s) == [];
  }

  /** `s.trim()` is falsy exactly when every character of `s` is whitespace. */
  lemma BlankIffAllSpace(s: string)
    ensures IsBlank(s) <==> AllSpace(s)
  {
    if AllSpace(s) {
      AllSpaceTrimsToEmpty(s);
    }
    if Trim(s) == [] {
      TrimIsSlice(s);
      var i := LeadingSpace(s);
      assert s == s[..i] + s[i..];
    }
  }

  /** Trimming twice is trimming once. */
  lemma TrimIdempotent(s: string)
    ensures Trim(Trim(s)) == Trim(s)
  {
    var r := Trim(s);
    assert r == [] + r + [];
    TrimOfPadded([], r, []);
  }

  /** JavaScript `s.split(sep)` for a one-character separator: the maximal
      separator-free pieces between occurrences of `sep`, empty ones included. */
  function Split(s: string, sep: char): (r: seq<string>)
    ensures |r| >= 1
    ensures forall i :: 0 <= i < |r| ==> sep !in r[i]
    decreases |s|
  {
    if s == [] then [[]]
    else
      var rest := Split(s[1..], sep);
      if s[0] == sep then [[]] + rest
      else [[s[0]] + rest[0]] + rest[1..]
  }

  /** `parts.join(sep)`: the inverse of `Split`. */
  function Join(parts: seq<string>, sep: char): string
    requires |parts| >= 1
  {
    if |parts| == 1 then parts[0] else parts[0] + [sep] + Join(parts[1..], sep)
  }

  /** Splitting loses nothing: joining the pieces restores the string. */
  lemma {:induction false} JoinSplit(s: string, sep: char)
    ensures Join(Split(s, sep), sep) == s
    decreases |s|
  {
    if s != [] {
      var rest := Split(s[1..], sep);
      JoinSplit(s[1..], sep);
      if s[0] == sep {
        assert ([[]] + rest)[1..] == rest;
      } else {
        var r := [[s[0]] + rest[0]] + rest[1..];
        if |rest| > 1 {
          assert r[1..] == rest[1..];
          assert Join(rest, sep) == rest[0] + [sep] + Join(rest[1..], sep);
        }
      }
    }
  }

  lemma {:induction false} SplitSeparatorFree(p: string, sep: char)
    requires sep !in p
    ensures Split(p, sep) == [p]
    decreases |p|
  {
    if p != [] {
      SplitSeparatorFree(p[1..], sep);
      assert [p[0]] + p[1..] == p;
    }
  }

  lemma {:induction false} SplitAfterPiece(p: string, t: string, sep: char)
    requires sep !in p
    ensures Split(p + [sep] + t, sep) == [p] + Split(t, sep)
    decreases |p|
  {
    if p == [] {
      assert p + [sep] + t == [sep] + t;
      assert ([sep] + t)[1..] == t;
    } else {
      assert (p + [sep] + t)[1..] == p[1..] + [sep] + t;
      SplitAfterPiece(p[1..], t, sep);
      assert [p[0]] + p[1..] == p;
    }
  }

  /** Joining separator-free pieces and splitting again gives the pieces back. */
  lemma {:induction false} SplitJoin(parts: seq<string>, sep: char)
    requires |parts| >= 1
    requires forall i :: 0 <= i < |parts| ==> sep !in parts[i]
    ensures Split(Join(parts, sep), sep) == parts
    decreases |parts|
  {
    if |parts| == 1 {
      SplitSeparatorFree(parts[0], sep);
    } else {
      SplitJoin(parts[1..], sep);
      SplitAfterPiece(parts[0], Join(parts[1..], sep), sep);
      assert [parts[0]] + parts[1..] == parts;
    }
  }

  /** `s.replace(/[cs]/g, '')`: every character of `cs` deleted, the others
      kept in order. */
  function RemoveChars(s: string, cs: set<char>): (r: string)
    ensures forall i :: 0 <= i < |r| ==> r[i] !in cs
    ensures |r| <= |s|
    decreases |s|
  {
    if s == [] then []
    else (if s[0] in cs then [] else [s[0]]) + RemoveChars(s[1..], cs)
  }

  /** Every character outside `cs` survives removal as often as it occurs. */
  lemma {:induction false} RemoveCharsKeeps(s: string, cs: set<char>, c: char)
    requires c !in cs
    ensures multiset(RemoveChars(s, cs))[c] == multiset(s)[c]
    decreases |s|
  {
    if s != [] {
      RemoveCharsKeeps(s[1..], cs, c);
      assert s == [s[0]] + s[1..];
    }
  }

  /** Removal works piecewise, so the kept characters stay in their order. */
  lemma {:induction false} RemoveCharsAppend(a: string, b: string, cs: set<char>)
    ensures RemoveChars(a + b, cs) == RemoveChars(a, cs) + RemoveChars(b, cs)
    decreases |a|
  {
    if a != [] {
      assert (a + b)[1..] == a[1..] + b;
      RemoveCharsAppend(a[1..], b, cs);
      var h := if a[0] in cs then [] else [a[0]];
      calc {
        RemoveChars(a + b, cs);
        h + RemoveChars(a[1..] + b, cs);
        h + (RemoveChars(a[1..], cs) + RemoveChars(b, cs));
        (h + RemoveChars(a[1..], cs)) + RemoveChars(b, cs);
      }
    } else {
      assert a + b == b;
    }
  }

  /** A string holding none of the characters is left alone. */
  lemma {:induction false} RemoveCharsNone(s: string, cs: set<char>)
    requires forall i :: 0 <= i < |s| ==> s[i] !in cs
    ensures RemoveChars(s, cs) == s
    decreases |s|
  {
    if s != [] {
      RemoveCharsNone(s[1..], cs);
    }
  }
}

=== FILE: loading_steps.dfy ===
/** The animation on the waiting screen (`LoadingState`): a step counter
    advanced every 2.5 s that stops at the last of the five messages, a
    progress value advanced every 0.5 s that stops below 96, and the
    vertical offset that shows the current message. The timers are left
    out: the n-th tick is the n-th application of an updater. */
module LoadingSteps {

  /** The texts of `analysisSteps`. */
  const AnalysisSteps: seq<string> := [
    "Scanning document integrity...",
    "Extracting key financial data...",
    "Identifying applicable tax laws for your region...",
    "Calculating over 60 potential tax strategies...",
    "Compiling your personalized financial plan..."
  ]

  const LastStep := |AnalysisSteps| - 1

  /** The `setCurrentStep` updater: one step further until the last. */
  function NextStep(step: int): (r: int)
    ensures step < LastStep ==> r == step + 1
    ensures step >= LastStep ==> r == step
    ensures step <= r
  {
    if step < LastStep then step + 1 else step
  }

  /** The `setProgress` updater: two more while below 95. */
  function NextProgress(progress: int): (r: int)
    ensures progress < 95 ==> r == progress + 2
    ensures progress >= 95 ==> r == progress
    ensures progress <= r
  {
    if progress < 95 then progress + 2 else progress
  }

  /** The step after `n` ticks, from 0. */
  function StepAfter(n: nat): int {
    if n == 0 then 0 else NextStep(StepAfter(n - 1))
  }

  /** The progress after `n` ticks, from 0. */
  function ProgressAfter(n: nat): int {
    if n == 0 then 0 else NextProgress(ProgressAfter(n - 1))
  }

  /** The step climbs one per tick and then stays on the last message: it
      is always a valid index of the messages. */
  lemma {:induction false} StepAfterIs(n: nat)
    ensures StepAfter(n) == if n < LastStep then n else LastStep
    ensures 0 <= StepAfter(n) < |AnalysisSteps|
  {
    if n > 0 {
      StepAfterIs(n - 1);
    }
  }

  /** The progress climbs by two per tick and stops at 96: it stays even and
      never exceeds 96. */
  lemma {:induction false} ProgressAfterIs(n: nat)
    ensures ProgressAfter(n) == if 2 * n < 96 then 2 * n else 96
    ensures ProgressAfter(n) % 2 == 0 && 0 <= ProgressAfter(n) <= 96
  {
    if n > 0 {
      ProgressAfterIs(n - 1);
    }
  }

  /** Neither counter ever goes back. */
  lemma {:induction false} CountersMonotone(m: nat, n: nat)
    requires m <= n
    ensures StepAfter(m) <= StepAfter(n)
    ensures ProgressAfter(m) <= ProgressAfter(n)
    decreases n - m
  {
    if m < n {
      CountersMonotone(m, n - 1);
    }
  }

  /** `translateY((index - currentStep) * 100 %)`. */
  function TranslateOffset(index: int, step: int): (r: int)
    ensures r == 0 <==> index == step
    ensures r < 0 <==> index < step
  {
    (index - step) * 100
  }
}

=== FILE: planner_page.dfy ===
/** The planner form (`TaxPlannerPage`): the picked files, the selects, the
    notes, the pending flag and the result, with the handlers that change
    them and the choice of what the page shows. Each handler is one atomic
    transition; the awaited analysis is split into `Submit` (up to the call)
    and `Complete` (after it). */
module PlannerPage {
  import opened Base
  import opened TaxSchema
  import opened AnalyzePrompt

  /** A picked file; its content is turned into a data URI by the caller's
      reader. */
  datatype File = File(name: string, content: seq<int>)

  datatype PlannerState = PlannerState(
    files: seq<File>,
    country: string,
    analysisType: string,
    additionalNotes: string,
    analysisResult: Option<AnalysisOutput>,
    loading: bool)

  const DefaultCountry := "United States"
  const DefaultAnalysisType := "Individual / Personal"

  const InitialPlanner := PlannerState([], DefaultCountry, DefaultAnalysisType, "", None, false)

  /** `handleFileChange`: a selection (absent when the input reports no
      file list) is appended after the files already picked. */
  function FileChange(st: PlannerState, picked: Option<seq<File>>): (r: PlannerState)
    ensures picked.None? ==> r == st
    ensures picked.Some? ==> (|r.files| == |st.files| + |picked.value|
      && r.files[..|st.files|] == st.files && r.files[|st.files|..] == picked.value)
    ensures r.(files := st.files) == st
  {
    match picked
    case None => st
    case Some(fs) =>
      var files := st.files + fs;
      assert files[..|st.files|] == st.files && files[|st.files|..] == fs;
      st.(files := files)
  }

  /** `prevFiles.filter((_, i) => i !== index)`: the file at `index` is
      dropped and the others keep their order; an index outside the list
      (negative, or past the end) drops nothing. */
  method RemoveFile(files: seq<File>, index: int) returns (r: seq<File>)
    ensures 0 <= index < |files| ==> r == files[..index] + files[index + 1..]
    ensures !(0 <= index < |files|) ==> r == files
  {
    r := [];
    var i := 0;
    while i < |files|
      invariant 0 <= i <= |files|
      invariant 0 <= index < i ==> r == files[..index] + files[index + 1..i]
      invariant !(0 <= index < i) ==> r == files[..i]
    {
      if i != index {
        r := r + [files[i]];
      }
      i := i + 1;
    }
    assert files[..|files|] == files;
  }

  /** `resetState`: files, result, loading and notes go back to empty; the
      country and analysis type stay as chosen. */
  function Reset(st: PlannerState): (r: PlannerState)
    ensures r.files == [] && r.analysisResult.None? && !r.loading && r.additionalNotes == ""
    ensures r.country == st.country && r.analysisType == st.analysisType
  {
    st.(files := [], analysisResult := None, loading := false, additionalNotes := "")
  }

  /** The first half of `handleSubmit`: `Rejected` when no file is picked
      (the toast is the only effect), otherwise the state set before the
      await and the flow input built from the form. */
  datatype SubmitStep = Rejected | Started(pending: PlannerState, request: AnalysisInput)

  function Submit(st: PlannerState, toDataUri: File -> string): (r: SubmitStep)
    ensures r.Rejected? <==> st.files == []
    ensures r.Started? ==>
      && r.pending == st.(loading := true, analysisResult := None)
      && |r.request.fileDataUris| == |st.files|
      && (forall i :: 0 <= i < |st.files| ==> r.request.fileDataUris[i] == toDataUri(st.files[i]))
      && r.request.country == st.country
      && r.request.analysisType == st.analysisType
      && r.request.additionalNotes == Some(st.additionalNotes)
      && r.request.incomeAndInvestments.None?
      && r.request.deductionsAndCredits.None?
      && r.request.businessAndRental.None?
  {
    if |st.files| == 0 then Rejected
    else
      var uris := seq(|st.files|, i requires 0 <= i < |st.files| => toDataUri(st.files[i]));
      Started(
        st.(loading := true, analysisResult := None),
        AnalysisInput(uris, st.country, st.analysisType, Some(st.additionalNotes), None, None, None))
  }

  /** How the awaited call ended: a report; no output at all, which the
      flow's non-null assertion passes on unchanged; or a thrown error
      (reading a file, the flow, or its schema check). */
  datatype Outcome = Analyzed(output: AnalysisOutput) | NoOutput | Failed(message: string)

  /** After the await: the returned value, a report or nothing, becomes the
      result; a failure leaves the result as it was. Loading ends either
      way. */
  function Complete(st: PlannerState, outcome: Outcome): (r: PlannerState)
    ensures !r.loading
    ensures outcome.Analyzed? ==> r.analysisResult == Some(outcome.output)
    ensures outcome.NoOutput? ==> r.analysisResult.None?
    ensures outcome.Failed? ==> r.analysisResult == st.analysisResult
    ensures r.(analysisResult := st.analysisResult, loading := st.loading) == st
  {
    match outcome
    case Analyzed(output) => st.(analysisResult := Some(output), loading := false)
    case NoOutput => st.(analysisResult := None, loading := false)
    case Failed(_) => st.(loading := false)
  }

  /** The whole handler, with the outcome of the call given. */
  function HandleSubmit(st: PlannerState, toDataUri: File -> string, outcome: Outcome): PlannerState {
    match Submit(st, toDataUri)
    case Rejected => st
    case Started(pending, _) => Complete(pending, outcome)
  }

  /** What the page renders. */
  datatype View = LoadingView | ResultView(result: AnalysisOutput) | FormView

  function ViewOf(st: PlannerState): (v: View)
    ensures v.LoadingView? <==> st.loading
    ensures v.ResultView? <==> !st.loading && st.analysisResult.Some?
    ensures v.ResultView? ==> v.result == st.analysisResult.value
  {
    if st.loading then LoadingView
    else if st.analysisResult.Some? then ResultView(st.analysisResult.value)
    else FormView
  }

  /** Submitting without files changes nothing. */
  lemma SubmitWithoutFilesIsNoOp(st: PlannerState, toDataUri: File -> string, outcome: Outcome)
    requires st.files == []
    ensures HandleSubmit(st, toDataUri, outcome) == st
  {
  }

  /** While the call is pending the page shows the loading view; afterwards
      it shows the report on success and the form otherwise. */
  lemma SubmitViews(st: PlannerState, toDataUri: File -> string, outcome: Outcome)
    requires st.files != []
    ensures ViewOf(Submit(st, toDataUri).pending) == LoadingView
    ensures outcome.Analyzed? ==> ViewOf(HandleSubmit(st, toDataUri, outcome)) == ResultView(outcome.output)
    ensures !outcome.Analyzed? ==> ViewOf(HandleSubmit(st, toDataUri, outcome)) == FormView
  {
  }

  /** "Start New Analysis" returns to the form. */
  lemma ResetShowsForm(st: PlannerState)
    ensures ViewOf(Reset(st)) == FormView
  {
  }

  /** The page never sends the structured figures, so every figure line of
      the prompt reads "Not Provided"; it only submits with files, so the
      "no documents" sentence is never sent and every file is attached. */
  lemma PlannerPromptShape(st: PlannerState, toDataUri: File -> string)
    requires st.files != []
    ensures var p := BuildPrompt(Submit(st, toDataUri).request);
      && (forall k :: 0 <= k < |FieldLabels| ==> p[FirstFieldSlot + k] == Text(FieldLabels[k] + NotProvided))
      && p[DocumentsSlot] == Text(DocumentsIntro)
      && |MediaUrls(p)| == |st.files|
  {
    var req := Submit(st, toDataUri).request;
    PromptCarriesDocuments(req);
    DocumentsIntroduced(req);
    NoFiguresNotProvided(req);
  }
}

=== FILE: savings.dfy ===
/** `parseSavings`, the helper that turns a strategy's free-text
    `potentialSavings` ("$2,000 - $3,000", "₹50,000") into a number, and the
    sum of it over a report's strategies. The report page and the history
    page each carry a copy of the helper; the two copies are identical, so
    the model defines it once. */
module Savings {
  import opened JsText
  import opened JsNumber
  import opened TaxSchema

  /** The character class `[$,₹€£]`. */
  const CurrencySymbols: set<char> := {'$', ',', '\U{20B9}', '\U{20AC}', '\U{00A3}'}

  /** `savings.replace(/[$,₹€£]/g, '').replace(/,/g, '')`. */
  function CleanSavings(savings: string): (r: string)
    ensures forall i :: 0 <= i < |r| ==> r[i] !in CurrencySymbols
    ensures |r| <= |savings|
  {
    var once := RemoveChars(savings, CurrencySymbols);
    RemoveCharsNone(once, {','});
    RemoveChars(once, {','})
  }

  /** The second `replace` never changes anything: the first already removed
      every comma. */
  lemma SecondReplaceIsNoOp(savings: string)
    ensures CleanSavings(savings) == RemoveChars(savings, CurrencySymbols)
  {
    RemoveCharsNone(RemoveChars(savings, CurrencySymbols), {','});
  }

  /** `parseFloat(s.trim())`, applied to each piece. */
  function ReadPiece(piece: string): Number {
    ParseFloat(Trim(piece))
  }

  /** `pieces.map(s => parseFloat(s.trim()))`. */
  function ReadPieces(pieces: seq<string>): (r: seq<Number>)
    ensures |r| == |pieces|
    ensures forall i :: 0 <= i < |pieces| ==> r[i] == ReadPiece(pieces[i])
  {
    if pieces == [] then [] else [ReadPiece(pieces[0])] + ReadPieces(pieces[1..])
  }

  /** The pieces `parseSavings` reads: the cleaned text split on `-`. */
  function SavingsPieces(savings: string): (r: seq<string>)
    ensures |r| >= 1
  {
    Split(CleanSavings(savings), '-')
  }

  /** The mean of the first two numbers of a range, the number itself when
      there is one piece that parses, and 0 otherwise. Only a range can
      give NaN: text without a `-` always reads as a number, and a range
      reads as NaN exactly when one of its two ends does not parse. */
  function ParseSavings(savings: string): (r: Number)
    ensures '-' !in CleanSavings(savings) ==> r.Num?
    ensures var pieces := SavingsPieces(savings);
      r.NaN? <==> |pieces| >= 2 && (ReadPiece(pieces[0]).NaN? || ReadPiece(pieces[1]).NaN?)
  {
    var numbers := ReadPieces(SavingsPieces(savings));
    SplitSeparatorFreeWhenClean(savings);
    if |numbers| > 1 then Mean(numbers[0], numbers[1])
    else if |numbers| == 1 && numbers[0].Num? then numbers[0]
    else Num(0.0)
  }

  lemma SplitSeparatorFreeWhenClean(savings: string)
    ensures '-' !in CleanSavings(savings) ==> |SavingsPieces(savings)| == 1
  {
    if '-' !in CleanSavings(savings) {
      SplitSeparatorFree(CleanSavings(savings), '-');
    }
  }

  /** The three cases of `parseSavings`, by the number of `-`-separated
      pieces. */
  lemma ParseSavingsCases(savings: string)
    ensures var pieces := SavingsPieces(savings);
      && (|pieces| >= 2 ==> ParseSavings(savings) == Mean(ReadPiece(pieces[0]), ReadPiece(pieces[1])))
      && (|pieces| == 1 && ReadPiece(pieces[0]).Num? ==> ParseSavings(savings) == ReadPiece(pieces[0]))
      && (|pieces| == 1 && ReadPiece(pieces[0]).NaN? ==> ParseSavings(savings) == Num(0.0))
  {
  }

  lemma DigitsUnpadded(ds: string)
    requires |ds| >= 1 && AllDigits(ds)
    ensures Unpadded(ds) && '-' !in ds
    ensures forall i :: 0 <= i < |ds| ==> ds[i] !in CurrencySymbols
  {
  }

  /** A piece holding the decimal text of `n`, padded with spaces, reads as `n`. */
  lemma ReadPieceNatText(a: string, n: nat, b: string)
    requires AllSpace(a) && AllSpace(b)
    ensures ReadPiece(a + NatText(n) + b) == Num(n as real)
  {
    DigitsUnpadded(NatText(n));
    TrimOfPadded(a, NatText(n), b);
    ParseFloatNatText(n);
  }

  lemma CleanAmount(a: string)
    requires |a| >= 1 && AllDigits(a)
    ensures CleanSavings("$" + a) == a
  {
    DigitsUnpadded(a);
    RemoveCharsAppend("$", a, CurrencySymbols);
    RemoveCharsNone(a, CurrencySymbols);
    assert RemoveChars("$", CurrencySymbols) == [];
    SecondReplaceIsNoOp("$" + a);
  }

  lemma CleanRange(a: string, b: string)
    requires |a| >= 1 && AllDigits(a) && |b| >= 1 && AllDigits(b)
    ensures CleanSavings("$" + a + " - $" + b) == a + " - " + b
  {
    DigitsUnpadded(a);
    DigitsUnpadded(b);
    var s := "$" + a + " - $" + b;
    assert s == "$" + (a + (" - $" + b));
    RemoveCharsAppend("$", a + (" - $" + b), CurrencySymbols);
    RemoveCharsAppend(a, " - $" + b, CurrencySymbols);
    RemoveCharsAppend(" - $", b, CurrencySymbols);
    RemoveCharsNone(a, CurrencySymbols);
    RemoveCharsNone(b, CurrencySymbols);
    assert RemoveChars("$", CurrencySymbols) == [];
    assert RemoveChars(" - $", CurrencySymbols) == " - ";
    SecondReplaceIsNoOp(s);
  }

  /** A dollar amount "$n" reads as n. */
  lemma ParseSavingsAmount(n: nat)
    ensures ParseSavings("$" + NatText(n)) == Num(n as real)
  {
    var a := NatText(n);
    DigitsUnpadded(a);
    CleanAmount(a);
    SplitSeparatorFree(a, '-');
    assert SavingsPieces("$" + a) == [a];
    assert a == [] + a + [];
    ReadPieceNatText([], n, []);
  }

  lemma RangePieces(a: string, b: string)
    requires |a| >= 1 && AllDigits(a) && |b| >= 1 && AllDigits(b)
    ensures SavingsPieces("$" + a + " - $" + b) == [a + " ", " " + b]
  {
    DigitsUnpadded(b);
    CleanRange(a, b);
    assert a + " - " + b == (a + " ") + ['-'] + (" " + b);
    SplitAfterPiece(a + " ", " " + b, '-');
    SplitSeparatorFree(" " + b, '-');
  }

  /** A dollar range "$n - $m" reads as the midpoint of n and m. */
  lemma ParseSavingsRange(n: nat, m: nat)
    ensures ParseSavings("$" + NatText(n) + " - $" + NatText(m)) == Num((n + m) as real / 2.0)
  {
    var a, b := NatText(n), NatText(m);
    DigitsUnpadded(a);
    DigitsUnpadded(b);
    RangePieces(a, b);
    ParseTwoPieces("$" + a + " - $" + b, a + " ", " " + b);
    assert a + " " == [] + a + " ";
    ReadPieceNatText([], n, " ");
    assert " " + b == " " + b + [];
    ReadPieceNatText(" ", m, []);
  }

  /** Text that splits into exactly two pieces reads as their mean. */
  lemma ParseTwoPieces(savings: string, x: string, y: string)
    requires SavingsPieces(savings) == [x, y]
    ensures ParseSavings(savings) == Mean(ReadPiece(x), ReadPiece(y))
  {
    ParseSavingsCases(savings);
  }

  /** `parseSavings(strategy.potentialSavings)`. */
  function StrategySavings(s: Strategy): Number {
    ParseSavings(s.potentialSavings)
  }

  /** `xs.reduce((acc, x) => acc + read(x), 0)`: NaN exactly when some
      element reads as NaN. */
  function SumBy<T>(xs: seq<T>, read: T -> Number): (r: Number)
    ensures r.NaN? <==> exists i :: 0 <= i < |xs| && read(xs[i]).NaN?
    decreases |xs|
  {
    if xs == [] then Num(0.0)
    else
      var init := xs[..|xs| - 1];
      assert forall i :: 0 <= i < |init| ==> init[i] == xs[i];
      Plus(SumBy(init, read), read(xs[|xs| - 1]))
  }

  /** The sum over a concatenation is the sum of the sums. */
  lemma {:induction false} SumByAppend<T>(a: seq<T>, b: seq<T>, read: T -> Number)
    ensures SumBy(a + b, read) == Plus(SumBy(a, read), SumBy(b, read))
    decreases |b|
  {
    if b == [] {
      assert a + b == a;
    } else {
      var b' := b[..|b| - 1];
      assert (a + b)[..|a + b| - 1] == a + b';
      SumByAppend(a, b', read);
    }
  }

  function SumOf(amounts: seq<nat>): nat
    decreases |amounts|
  {
    if amounts == [] then 0 else SumOf(amounts[..|amounts| - 1]) + amounts[|amounts| - 1]
  }

  /** Elements that read as whole amounts sum to the sum of those amounts. */
  lemma {:induction false} SumByAmounts<T>(xs: seq<T>, read: T -> Number, amounts: seq<nat>)
    requires |xs| == |amounts|
    requires forall i :: 0 <= i < |xs| ==> read(xs[i]) == Num(amounts[i] as real)
    ensures SumBy(xs, read) == Num(SumOf(amounts) as real)
    decreases |xs|
  {
    if xs != [] {
      var k := |xs| - 1;
      var init, prior := xs[..k], amounts[..k];
      assert forall i :: 0 <= i < k ==> init[i] == xs[i] && prior[i] == amounts[i];
      SumByAmounts(init, read, prior);
    }
  }

  /** The history card's total: `report.result.strategies.reduce((acc,
      strategy) => acc + parseSavings(strategy.potentialSavings), 0)`. It is
      NaN exactly when some strategy's savings read as NaN. */
  function TotalSavings(strategies: seq<Strategy>): (r: Number)
    ensures r.NaN? <==> exists i :: 0 <= i < |strategies| && StrategySavings(strategies[i]).NaN?
  {
    SumBy(strategies, StrategySavings)
  }

  /** Strategies whose savings are plain dollar amounts "$n" total the sum
      of those amounts. */
  lemma TotalOfAmounts(strategies: seq<Strategy>, amounts: seq<nat>)
    requires |strategies| == |amounts|
    requires forall i :: 0 <= i < |strategies| ==> strategies[i].potentialSavings == "$" + NatText(amounts[i])
    ensures TotalSavings(strategies) == Num(SumOf(amounts) as real)
  {
    forall i | 0 <= i < |strategies|
      ensures StrategySavings(strategies[i]) == Num(amounts[i] as real)
    {
      ParseSavingsAmount(amounts[i]);
    }
    SumByAmounts(strategies, StrategySavings, amounts);
  }

  /** Splitting a report's strategies in two splits its total. */
  lemma TotalSavingsAppend(a: seq<Strategy>, b: seq<Strategy>)
    ensures TotalSavings(a + b) == Plus(TotalSavings(a), TotalSavings(b))
  {
    SumByAppend(a, b, StrategySavings);
  }

  /** A lone dash, as a model might write for "no savings", is two empty
      pieces and reads as NaN; so does every total it enters. */
  lemma DashReadsAsNaN()
    ensures ParseSavings("-").NaN?
    ensures forall strategies: seq<Strategy> ::
      ((exists i :: 0 <= i < |strategies| && strategies[i].potentialSavings == "-")
        ==> TotalSavings(strategies).NaN?)
  {
    assert CleanSavings("-") == "-";
    assert Split("-", '-') == ["", ""];
    assert ReadPiece("").NaN?;
    ParseSavingsCases("-");
  }

  /** `parseSavings` with the NaN check of the one-piece branch applied to
      the range branch as well: text that does not read as a number counts
      as 0. */
  function ParseSavingsGuarded(savings: string): (r: Number)
    ensures r.Num?
    ensures ParseSavings(savings).Num? ==> r == ParseSavings(savings)
  {
    var n := ParseSavings(savings);
    if n.NaN? then Num(0.0) else n
  }

  function GuardedStrategySavings(s: Strategy): Number {
    ParseSavingsGuarded(s.potentialSavings)
  }

  /** The history total over the guarded reading is always a number, and
      equals the total as written whenever that one is not NaN. */
  function TotalSavingsGuarded(strategies: seq<Strategy>): (r: Number)
    ensures r.Num?
    ensures TotalSavings(strategies).Num? ==> r == TotalSavings(strategies)
  {
    GuardedAgrees(strategies);
    SumBy(strategies, GuardedStrategySavings)
  }

  lemma {:induction false} GuardedAgrees(strategies: seq<Strategy>)
    ensures TotalSavings(strategies).Num? ==> SumBy(strategies, GuardedStrategySavings) == TotalSavings(strategies)
    decreases |strategies|
  {
    if strategies != [] && TotalSavings(strategies).Num? {
      var init := strategies[..|strategies| - 1];
      assert forall i :: 0 <= i < |init| ==> init[i] == strategies[i];
      GuardedAgrees(init);
    }
  }
}

=== FILE: sorting.dfy ===
/** `Array.prototype.sort` with a descending numeric comparator
    (`(a, b) => key(b) - key(a)`), which the source uses twice: for the chart
    of savings and for the newest-first list of reports. */
module Sorting {

  /** Keys never increase from left to right. */
  predicate SortedDesc<T>(s: seq<T>, key: T -> real) {
    forall i, j :: 0 <= i < j < |s| ==> key(s[i]) >= key(s[j])
  }

  /** `x` placed after every element whose key is at least its own. */
  function InsertDesc<T>(s: seq<T>, x: T, key: T -> real): (r: seq<T>)
    requires SortedDesc(s, key)
    ensures SortedDesc(r, key)
    ensures multiset(r) == multiset(s) + multiset{x}
    ensures forall y :: y in r ==> y in s || y == x
    decreases |s|
  {
    if s == [] then [x]
    else if key(x) > key(s[0]) then [x] + s
    else
      var tail := InsertDesc(s[1..], x, key);
      assert s == [s[0]] + s[1..];
      assert forall y :: y in tail ==> key(y) <= key(s[0]) by {
        forall y | y in tail ensures key(y) <= key(s[0]) {
          if y != x {
            var k :| 1 <= k < |s| && s[k] == y;
          }
        }
      }
      [s[0]] + tail
  }

  /** Insertion sort, taking the elements in their original order. */
  function SortDesc<T>(s: seq<T>, key: T -> real): (r: seq<T>)
    ensures SortedDesc(r, key)
    ensures multiset(r) == multiset(s)
    decreases |s|
  {
    if s == [] then []
    else
      assert s == s[..|s| - 1] + [s[|s| - 1]];
      InsertDesc(SortDesc(s[..|s| - 1], key), s[|s| - 1], key)
  }
}

=== FILE: tax_schema.dfy ===
/** The input and output shapes of the document-analysis flow, and the
    schema check the output goes through before the flow returns it: a JSON
    value either conforms (unknown keys are dropped) or is rejected. */
module TaxSchema {
  import opened Base

  datatype IncomeAndInvestments = IncomeAndInvestments(
    employmentIncome: Option<string>,
    investmentIncome: Option<string>,
    retirementContributions: Option<string>)

  datatype DeductionsAndCredits = DeductionsAndCredits(
    mortgageInterest: Option<string>,
    charitableDonations: Option<string>,
    studentLoanInterest: Option<string>,
    otherDeductions: Option<string>)

  datatype BusinessAndRental = BusinessAndRental(
    businessRevenue: Option<string>,
    businessExpenses: Option<string>,
    rentalIncome: Option<string>,
    rentalExpenses: Option<string>)

  /** The request: documents as data URIs, country and analysis type are
      required; the notes and the three groups of structured figures (and
      every figure inside a group) are optional. */
  datatype AnalysisInput = AnalysisInput(
    fileDataUris: seq<string>,
    country: string,
    analysisType: string,
    additionalNotes: Option<string>,
    incomeAndInvestments: Option<IncomeAndInvestments>,
    deductionsAndCredits: Option<DeductionsAndCredits>,
    businessAndRental: Option<BusinessAndRental>)

  datatype KeyFigure = KeyFigure(name: string, value: string)

  datatype Strategy = Strategy(
    title: string,
    description: string,
    action: string,
    relevantSection: string,
    potentialSavings: string)

  /** The report: three required lists, two required narratives and an
      optional what-if section. */
  datatype AnalysisOutput = AnalysisOutput(
    documentTypes: seq<string>,
    keyFigures: seq<KeyFigure>,
    financialHealthSummary: string,
    executiveSummary: string,
    whatIfAnalysis: Option<string>,
    strategies: seq<Strategy>)

  /** A parsed JSON value, as the model's structured reply arrives. */
  datatype Json =
    | JNull
    | JBool(b: bool)
    | JNumber(n: real)
    | JString(str: string)
    | JArray(items: seq<Json>)
    | JObject(fields: map<string, Json>)

  /** The key of the first field found not to conform. */
  datatype SchemaError = Invalid(key: string)

  const DocumentTypesKey := "documentTypes"
  const KeyFiguresKey := "keyFigures"
  const HealthKey := "financialHealthSummary"
  const ExecutiveKey := "executiveSummary"
  const WhatIfKey := "whatIfAnalysis"
  const StrategiesKey := "strategies"

  /** A required string member. */
  function StringAt(fields: map<string, Json>, key: string): (r: Option<string>)
    ensures r.Some? <==> key in fields && fields[key].JString?
    ensures r.Some? ==> fields[key] == JString(r.value)
  {
    if key in fields && fields[key].JString? then Some(fields[key].str) else None
  }

  /** Every item decoded by `decode`, or nothing as soon as one item fails. */
  function DecodeEach<T>(items: seq<Json>, decode: Json -> Option<T>): (r: Option<seq<T>>)
    ensures r.Some? <==> forall i :: 0 <= i < |items| ==> decode(items[i]).Some?
    ensures r.Some? ==> |r.value| == |items| && forall i :: 0 <= i < |items| ==> decode(items[i]) == Some(r.value[i])
    decreases |items|
  {
    if items == [] then Some([])
    else
      match (decode(items[0]), DecodeEach(items[1..], decode))
      case (Some(x), Some(xs)) => Some([x] + xs)
      case (Some(_), None) =>
        assert forall i :: 1 <= i < |items| ==> items[i] == items[1..][i - 1];
        None
      case (None, _) => None
  }

  function DecodeString(j: Json): Option<string> {
    if j.JString? then Some(j.str) else None
  }

  function DecodeKeyFigure(j: Json): Option<KeyFigure> {
    if !j.JObject? then None
    else
      match (StringAt(j.fields, "name"), StringAt(j.fields, "value"))
      case (Some(n), Some(v)) => Some(KeyFigure(n, v))
      case _ => None
  }

  function DecodeStrategy(j: Json): Option<Strategy> {
    if !j.JObject? then None
    else
      var f := j.fields;
      match (StringAt(f, "title"), StringAt(f, "description"), StringAt(f, "action"),
             StringAt(f, "relevantSection"), StringAt(f, "potentialSavings"))
      case (Some(t), Some(d), Some(a), Some(s), Some(p)) => Some(Strategy(t, d, a, s, p))
      case _ => None
  }

  /** A required array member whose items all decode. */
  function ArrayAt<T>(fields: map<string, Json>, key: string, decode: Json -> Option<T>): Result<seq<T>, SchemaError> {
    if key in fields && fields[key].JArray? then
      match DecodeEach(fields[key].items, decode)
      case Some(xs) => Success(xs)
      case None => Failure(Invalid(key))
    else Failure(Invalid(key))
  }

  /** The schema check of the report: every required member present with the
      right type, `whatIfAnalysis` absent or a string, other keys ignored. */
  function DecodeOutput(j: Json): (r: Result<AnalysisOutput, SchemaError>)
    ensures r.Success? ==> j.JObject? && StrategiesKey in j.fields && DocumentTypesKey in j.fields && KeyFiguresKey in j.fields
    ensures r.Success? ==> (r.value.whatIfAnalysis.Some? <==> WhatIfKey in j.fields)
    ensures r.Success? ==> j.fields[StrategiesKey].JArray? && |r.value.strategies| == |j.fields[StrategiesKey].items|
    ensures r.Success? ==>
      && ArrayAt(j.fields, DocumentTypesKey, DecodeString) == Success(r.value.documentTypes)
      && ArrayAt(j.fields, KeyFiguresKey, DecodeKeyFigure) == Success(r.value.keyFigures)
      && StringAt(j.fields, HealthKey) == Some(r.value.financialHealthSummary)
      && StringAt(j.fields, ExecutiveKey) == Some(r.value.executiveSummary)
      && (r.value.whatIfAnalysis.Some? ==> j.fields[WhatIfKey] == JString(r.value.whatIfAnalysis.value))
      && ArrayAt(j.fields, StrategiesKey, DecodeStrategy) == Success(r.value.strategies)
  {
    if !j.JObject? then Failure(Invalid(""))
    else
      var f := j.fields;
      var documentTypes :- ArrayAt(f, DocumentTypesKey, DecodeString);
      var keyFigures :- ArrayAt(f, KeyFiguresKey, DecodeKeyFigure);
      var health :- StringAt(f, HealthKey).ToResultWith(Invalid(HealthKey));
      var executive :- StringAt(f, ExecutiveKey).ToResultWith(Invalid(ExecutiveKey));
      var whatIf :- if WhatIfKey !in f then Success(None)
                    else if f[WhatIfKey].JString? then Success(Some(f[WhatIfKey].str))
                    else Failure(Invalid(WhatIfKey));
      var strategies :- ArrayAt(f, StrategiesKey, DecodeStrategy);
      Success(AnalysisOutput(documentTypes, keyFigures, health, executive, whatIf, strategies))
  }

  function EncodeKeyFigure(k: KeyFigure): Json {
    JObject(map["name" := JString(k.name), "value" := JString(k.value)])
  }

  function EncodeStrategy(s: Strategy): Json {
    JObject(map[
      "title" := JString(s.title),
      "description" := JString(s.description),
      "action" := JString(s.action),
      "relevantSection" := JString(s.relevantSection),
      "potentialSavings" := JString(s.potentialSavings)])
  }

  function EncodeString(s: string): Json {
    JString(s)
  }

  function EncodeEach<T>(xs: seq<T>, encode: T -> Json): seq<Json> {
    seq(|xs|, i requires 0 <= i < |xs| => encode(xs[i]))
  }

  /** The report as the JSON object the schema describes. */
  function EncodeOutput(o: AnalysisOutput): Json {
    var required := map[
      DocumentTypesKey := JArray(EncodeEach(o.documentTypes, EncodeString)),
      KeyFiguresKey := JArray(EncodeEach(o.keyFigures, EncodeKeyFigure)),
      HealthKey := JString(o.financialHealthSummary),
      ExecutiveKey := JString(o.executiveSummary),
      StrategiesKey := JArray(EncodeEach(o.strategies, EncodeStrategy))];
    match o.whatIfAnalysis
    case Some(w) => JObject(required[WhatIfKey := JString(w)])
    case None => JObject(required)
  }

  /** Decoding the items of an encoded list gives the list back, when each
      item decodes back to itself. */
  lemma DecodeEachEncoded<T>(xs: seq<T>, encode: T -> Json, decode: Json -> Option<T>)
    requires forall i :: 0 <= i < |xs| ==> decode(encode(xs[i])) == Some(xs[i])
    ensures DecodeEach(EncodeEach(xs, encode), decode) == Some(xs)
  {
    var items := EncodeEach(xs, encode);
    assert forall i :: 0 <= i < |items| ==> decode(items[i]) == Some(xs[i]);
    var r := DecodeEach(items, decode);
    assert r.value == xs;
  }

  lemma KeyFigureRoundTrip(k: KeyFigure)
    ensures DecodeKeyFigure(EncodeKeyFigure(k)) == Some(k)
  {
    var f := EncodeKeyFigure(k).fields;
    assert StringAt(f, "name") == Some(k.name);
    assert StringAt(f, "value") == Some(k.value);
  }

  lemma StrategyRoundTrip(s: Strategy)
    ensures DecodeStrategy(EncodeStrategy(s)) == Some(s)
  {
    var f := EncodeStrategy(s).fields;
    assert StringAt(f, "title") == Some(s.title);
    assert StringAt(f, "description") == Some(s.description);
    assert StringAt(f, "action") == Some(s.action);
    assert StringAt(f, "relevantSection") == Some(s.relevantSection);
    assert StringAt(f, "potentialSavings") == Some(s.potentialSavings);
  }

  /** Where each part of the report lands in its encoding. */
  lemma EncodedFields(o: AnalysisOutput)
    ensures var f := EncodeOutput(o).fields;
      && f[DocumentTypesKey] == JArray(EncodeEach(o.documentTypes, EncodeString))
      && f[KeyFiguresKey] == JArray(EncodeEach(o.keyFigures, EncodeKeyFigure))
      && f[StrategiesKey] == JArray(EncodeEach(o.strategies, EncodeStrategy))
      && f[HealthKey] == JString(o.financialHealthSummary)
      && f[ExecutiveKey] == JString(o.executiveSummary)
      && (WhatIfKey in f <==> o.whatIfAnalysis.Some?)
      && (o.whatIfAnalysis.Some? ==> f[WhatIfKey] == JString(o.whatIfAnalysis.value))
  {
  }

  /** Every report passes the schema check of its own encoding unchanged. */
  lemma DecodeEncode(o: AnalysisOutput)
    ensures DecodeOutput(EncodeOutput(o)) == Success(o)
  {
    forall k | k in o.keyFigures ensures DecodeKeyFigure(EncodeKeyFigure(k)) == Some(k) {
      KeyFigureRoundTrip(k);
    }
    forall s | s in o.strategies ensures DecodeStrategy(EncodeStrategy(s)) == Some(s) {
      StrategyRoundTrip(s);
    }
    DecodeEachEncoded(o.documentTypes, EncodeString, DecodeString);
    DecodeEachEncoded(o.keyFigures, EncodeKeyFigure, DecodeKeyFigure);
    DecodeEachEncoded(o.strategies, EncodeStrategy, DecodeStrategy);
    EncodedFields(o);
    var f := EncodeOutput(o).fields;
    assert ArrayAt(f, DocumentTypesKey, DecodeString) == Success(o.documentTypes);
    assert ArrayAt(f, KeyFiguresKey, DecodeKeyFigure) == Success(o.keyFigures);
    assert ArrayAt(f, StrategiesKey, DecodeStrategy) == Success(o.strategies);
    DecodeConforming(f, o);
  }

  lemma DecodeConforming(f: map<string, Json>, o: AnalysisOutput)
    requires ArrayAt(f, DocumentTypesKey, DecodeString) == Success(o.documentTypes)
    requires ArrayAt(f, KeyFiguresKey, DecodeKeyFigure) == Success(o.keyFigures)
    requires ArrayAt(f, StrategiesKey, DecodeStrategy) == Success(o.strategies)
    requires StringAt(f, HealthKey) == Some(o.financialHealthSummary)
    requires StringAt(f, ExecutiveKey) == Some(o.executiveSummary)
    requires WhatIfKey in f <==> o.whatIfAnalysis.Some?
    requires o.whatIfAnalysis.Some? ==> f[WhatIfKey] == JString(o.whatIfAnalysis.value)
    ensures DecodeOutput(JObject(f)) == Success(o)
  {
  }

  /** A reply without a `strategies` array is rejected, never returned with
      the list missing. */
  lemma MissingStrategiesRejected(j: Json)
    requires j.JObject? && StrategiesKey !in j.fields
    ensures DecodeOutput(j).Failure?
  {
  }
}
